=== FILE: README.md ===
# Sparkcharts in Dafny

A model of the sparkcharts.js pipeline for one element. The pipeline reads a
text spec `points[;max][;mean]` from the element and turns it into chart
geometry.

- `prepare` splits the spec into its three segments.
- It tokenises the points and keeps the tokens that are finite numbers.
- It resolves the vertical scale, with an optional override.
- It parses the optional mean indicator, `mean` or `min, max, mean`.
- It sizes the chart from the font size: 1em bars, 0.2em gaps, a 2em bar area and a 0.6em indicator strip.
- `draw` then picks bar or tone mode and builds the canvas.
- `drawBars` and `drawTone` lay out the rects.
- `drawMeanLine` places the indicator: one or two triangle markers and a dashed line.

Everything is modelled as pure functions over `string`, `seq` and `real`:

- JavaScript's `Number` is a parameter, `Parser = string -> Option<real>`. None stands for NaN and for the infinities.
- `console.warn` becomes a returned list of `Warning` values. Each value carries the data its message quotes.
- The SVG output becomes a list of `Shape` values on a canvas.
- `prepare` returning `null` is `None`.

Modules follow the structure of the script:

| module | file | what it holds |
|---|---|---|
| `Wrappers` | wrappers.dfy | `Option` |
| `Strings` | strings.dfy | ECMAScript `trim` (fully characterised), `split` on one character (round trips in both directions), the `\n+` collapse (characterised run by run) and the empty-string filter |
| `Diagnostics` | diagnostics.dfy | the warning categories |
| `Tokens` | tokens.dfy | spec segments, point tokens, the valid/invalid partition |
| `Scale` | scale.dfy | `dataMax`, the max override and the scale decision |
| `MeanSpec` | meanspec.dfy | the mean-spec decision procedure |
| `Layout` | layout.dfy | em constants, widths, bar heights, the indicator's x-position |
| `Chart` | chart.dfy | `prepare` and the invariants of the options it returns |
| `Render` | render.dfy | `draw`, `drawBars`, `drawTone`, `drawMeanLine` |
| `Sparkcharts` | sparkcharts.dfy | the whole pipeline for one element and its end-to-end properties |
| `Scenarios` | scenarios.dfy | concrete specs pushed through `prepare` and `draw` |

### Behaviour worth knowing

- **Tone-mode indicator.** In tone mode the indicator is not interpolated between the bar centres. `drawTone` passes `paddedWidth` to `drawMeanLine` (sparkcharts.js:272, 324), so the interpolation runs from `barWidth / 2` to `paddedWidth - barWidth / 2`. The bars are shifted right by one gap, so those ends lie one gap outside the outer bar centres. In bar mode the ends are exactly the first and last bar centres. `Sparkcharts.ToneMeanPosition` and `Sparkcharts.BarMeanPosition` state the two cases.
- **`"5,10;0,20,15"` does not set a mean.** With one `;` the text after it is the max override (sparkcharts.js:31-33, 61). `Number("0,20,15")` is NaN, so the script issues an invalid-max warning, scales automatically and draws no indicator. `Scenarios.MeanSpecInMaxSlot` proves this. An explicit mean needs an empty second segment, `"5,10;;0,20,15"`, which `Scenarios.ExplicitMean` and `Scenarios.ExplicitMeanPosition` cover. There the indicator sits at 75% of the way between the two bar centres.

## Model

| member | source | states |
|---|---|---|
| Strings.Trim | sparkcharts.js:30-31 | the result of `trim` has no whitespace at either end and is no longer than its input |
| Strings.TrimDecomposes | sparkcharts.js:30-31 | every string is its trim surrounded by whitespace, so `trim` removes only leading and trailing whitespace |
| Strings.TrimOfPadded | sparkcharts.js:30-31 | a trimmed core with any whitespace around it trims back to exactly that core (with `TrimDecomposes`, a full characterisation of `trim`) |
| Strings.TrimIdentity | sparkcharts.js:30-31 | `trim` leaves an already trimmed string unchanged |
| Strings.Split | sparkcharts.js:31 | `split` on one character gives one more piece than there are separators, and no piece contains the separator |
| Strings.JoinSplit | sparkcharts.js:31 | joining the pieces of a split with the same separator gives back the input |
| Strings.SplitJoin | sparkcharts.js:38 | splitting a join of separator-free pieces gives back the pieces |
| Strings.JoinAppend | sparkcharts.js:31 | joining two lists is joining each, with one separator between |
| Strings.SplitAfterJoin | sparkcharts.js:31 | splitting separator-free pieces, a separator and more text gives the pieces followed by the split of that text |
| Strings.CollapseNewlines | sparkcharts.js:37 | `replace(/\n+/g, ' ')` leaves no newline and never lengthens the text (its run-by-run characterisation is in the next three rows) |
| Strings.CollapseNewlinesRun | sparkcharts.js:37 | a maximal run of newlines after newline-free text becomes exactly one space, and the rest of the text is collapsed on its own: `collapse(a + run + b) == a + " " + collapse(b)` |
| Strings.CollapseTwoRuns | sparkcharts.js:37 | two single newlines around non-empty newline-free text each become one space |
| Strings.CollapseMergedRuns | sparkcharts.js:37 | two adjacent newlines form one run and give a single space |
| Strings.CollapseNewlinesIdentity | sparkcharts.js:37 | text without newlines passes through the collapse unchanged |
| Strings.TrimAll | sparkcharts.js:39 | `.map(s => s.trim())` keeps the length and trims each element in place |
| Strings.NonEmpty | sparkcharts.js:87 | `.filter(s => s !== '')` keeps exactly the non-empty elements |
| Strings.NonEmptyAppend | sparkcharts.js:87 | the filter distributes over concatenation, so it keeps the input order |
| Strings.NonEmptySingle | sparkcharts.js:87 | a single element is kept iff it is not empty |
| Strings.NonEmptyAllKept | sparkcharts.js:87 | a list without empty elements passes the filter unchanged |
| Tokens.SplitContent | sparkcharts.js:30-34 | the three segments are trimmed and free of `;`; `maxData` exists iff the text has a `;` and `meanData` iff it has two |
| Tokens.SplitContentFormat | sparkcharts.js:30-34 | writing three trimmed, `;`-free segments as `points;max;mean` and splitting again returns them unchanged |
| Tokens.SplitContentExtraSegments | sparkcharts.js:30-34 | anything after a third `;` is ignored: `points;max;mean;rest` has the same three segments as `points;max;mean` |
| Tokens.RawTokens | sparkcharts.js:36-39 | there is always at least one token, and every token is trimmed and free of `,` and newlines |
| Tokens.RawTokensJoin | sparkcharts.js:36-39 | clean tokens joined with `,` tokenise back to themselves |
| Tokens.ValidTokens | sparkcharts.js:41-47 | `rawTokens.filter(isValid)` keeps only valid tokens and is empty iff no token is valid |
| Tokens.InvalidTokens | sparkcharts.js:51 | the complementary filter keeps only invalid tokens and is empty iff every token is valid |
| Tokens.Numbers | sparkcharts.js:47 | `.map(s => Number(s))` gives, position by position, the value `Number` assigns each token |
| Tokens.Points | sparkcharts.js:47-49 | one point per valid token; no points iff no token is valid |
| Tokens.Negatives | sparkcharts.js:56 | exactly the negative points are reported, and none iff every point is non-negative |
| Tokens.NegativesAppend | sparkcharts.js:56 | the negative filter distributes over concatenation, so negatives are reported in point order |
| Tokens.NegativesSingle | sparkcharts.js:56 | a single point is reported iff it is below 0 |
| Tokens.PartitionCount | sparkcharts.js:47-51 | valid and invalid tokens together account for every raw token |
| Tokens.ValidTokensAppend | sparkcharts.js:47 | the valid filter distributes over concatenation, so input order is kept |
| Tokens.InvalidTokensAppend | sparkcharts.js:51 | the invalid filter distributes over concatenation, so input order is kept |
| Tokens.PartitionSingle | sparkcharts.js:47-51 | a single token goes to exactly one of the two sides |
| Scale.DataMax | sparkcharts.js:62 | `Math.max(...points, 0)` is non-negative, bounds every point, and is 0 or one of the points |
| Scale.DataMaxLeast | sparkcharts.js:62 | it is the least non-negative upper bound of the points |
| Scale.ReadOverride | sparkcharts.js:61 | the override is absent iff there is no second segment or it is empty; otherwise it is what `Number` gives |
| Scale.ResolveScale | sparkcharts.js:63-75 | `scaleMax >= dataMax`; the override is used iff finite and at least `dataMax`; each other case gets its own warning; an absent override gets none |
| MeanSpec.MeanTokens | sparkcharts.js:83-87 | mean tokens are non-empty, trimmed and free of `,` |
| MeanSpec.MeanTokensJoin | sparkcharts.js:83-87 | clean tokens joined with `,` tokenise back to themselves with the empty ones dropped, and to exactly themselves when none is empty |
| MeanSpec.ParseMeanTokens | sparkcharts.js:89-124 | an indicator is set iff the 1-token form (finite, at least 0, range 0 to 100) or the 3-token form (finite, `min < max`, `mean >= 0`) is accepted; otherwise there is exactly one warning, and each rejecting branch gives its own: an unparsable or a negative single mean, an unparsable triple, an inverted range, a negative explicit mean; an out-of-range explicit mean is kept, with an out-of-range warning |
| MeanSpec.ParseMean | sparkcharts.js:82-125 | an absent or empty third segment means no indicator and no warning; a non-empty one is decided by `ParseMeanTokens` on its mean tokens, so it gets exactly that indicator and those warnings |
| Layout.ResolveFontSize | sparkcharts.js:27 | the parsed font size, with NaN and 0 falling back to 16 and every other value kept |
| Layout.BarsDoNotOverlap | sparkcharts.js:296 | consecutive bars are exactly `barWidth + gap` apart, so with a non-negative gap no two bars overlap |
| Layout.BarXMonotone | sparkcharts.js:343 | bar x-positions grow with the index |
| Layout.ChartWidth | sparkcharts.js:127-130 | the width of `n >= 1` bars is the last bar's x plus one bar width; it is 0 for no bars |
| Layout.ChartWidthAtLeastOneBar | sparkcharts.js:127-130 | with at least one point the width holds at least one bar |
| Layout.MarkerHeight | sparkcharts.js:252 | the indicator strip is empty exactly when there is no mean |
| Layout.ScaledHeight | sparkcharts.js:340-341 | `h` is between 0 and the bar area for points up to `scaleMax`, and 0 iff the point is not positive or `scaleMax` is not |
| Layout.ScaledHeightFull | sparkcharts.js:340-341 | a point equal to `scaleMax` fills the bar area exactly, so `scaleMax` is the value drawn at full height |
| Layout.ScaledHeightAdditive | sparkcharts.js:340-341 | for non-negative points, the height of a sum is the sum of the heights |
| Layout.ScaledHeightProportional | sparkcharts.js:340-341 | with a positive `scaleMax`, `h * scaleMax == max(0, point) * area`: the height is proportional to the clamped point |
| Layout.BarHeight | sparkcharts.js:342 | the drawn height is at least 1, equals `h` once `h >= 1`, is 1 iff `h <= 1`, and never exceeds `max(1, area)` |
| Layout.BarHeightMonotone | sparkcharts.js:293-295 | larger values never give shorter bars |
| Layout.MeanXEndpoints | sparkcharts.js:194-197 | the range's ends map to `barWidth / 2` and `width - barWidth / 2` |
| Layout.MeanXMonotone | sparkcharts.js:196-197 | a larger mean never moves the indicator left |
| Layout.MeanXWithin | sparkcharts.js:194-197 | a mean inside its range puts the indicator between the interpolation's ends |
| Chart.TokenWarnings | sparkcharts.js:51-59 | the non-numeric warning is issued iff a token was rejected, the negative-values warning iff a point is negative, and nothing else; each at most once, the non-numeric one first |
| Chart.Prepare | sparkcharts.js:47-49 | `prepare` returns null iff no token is a finite number |
| Chart.Assemble | sparkcharts.js:51-130 | the options keep the points and the font size and satisfy the options invariants; the scale and the indicator are what the scale and mean decisions give; the warnings are exactly the token warnings, then the scale warnings, then the mean warnings |
| Chart.PrepareTokenWarnings | sparkcharts.js:51-125 | the warnings `prepare` issues start with the token warnings, and every later one is about the scale or the mean |
| Chart.PrepareValidOptions | sparkcharts.js:47-130 | every options record `prepare` returns has a point, em-based sizes, `width` from the width formula, `scaleMax >= dataMax`, and a well-formed indicator |
| Render.ModeOf | sparkcharts.js:251-255 | tone mode iff the mode attribute is exactly `tone` |
| Render.DrawMeanLine | sparkcharts.js:181-247 | no mean gives nothing; an empty range gives one warning and nothing else; otherwise a downward marker of width `barWidth` at y 0 titled with the mean, centred on the interpolated x, then in bar mode a dashed line from the strip to the bottom and in tone mode an upward marker at `height - markerHeight` and a dashed line between the strips |
| Render.DrawBars | sparkcharts.js:329-361 | the canvas is `width` wide; the first shapes are one rect per point, in order, each standing on the bottom edge; without a mean there are exactly those rects and no warning |
| Render.DrawTone | sparkcharts.js:268-324 | the canvas is widened by one gap on each side; the baseline comes first, then an upper and a lower rect per point, in point order; without a mean that is everything, with no warning |
| Render.TonePairs | sparkcharts.js:292-321 | the `forEach` appends two rects per point: the upper half, then its mirror |
| Render.Draw | sparkcharts.js:250-263 | the canvas height is the one the mode and the indicator strip call for |
| Sparkcharts.Sparkchart | sparkcharts.js:366-370 | an element gets no chart, and `draw` is never reached, iff no point token is a finite number |
| Sparkcharts.SparkchartWarnings | sparkcharts.js:366-370 | for a non-negative computed font size, an element's warnings are exactly those of `prepare`: `draw` adds none |
| Sparkcharts.TokenPartition | sparkcharts.js:36-54 | the points are the valid tokens' values in input order; points and rejects add up to the token count; the non-numeric warning names exactly the rejects and appears iff there are any |
| Sparkcharts.ScaleBound | sparkcharts.js:61-75 | for every override, `0 <= dataMax <= scaleMax`; the override is used iff finite and at least `dataMax`, and otherwise `dataMax` is |
| Sparkcharts.MeanIndicator | sparkcharts.js:82-125 | an indicator is set iff the third segment is non-empty and an accepted form, and then `min < max` and `mean >= 0`; a one-token spec gives `Number(token)` on the range 0 to 100, and a three-token spec gives range and value from `Number` of its tokens in order |
| Sparkcharts.CanvasHeights | sparkcharts.js:252-263 | bar height is `2em + strip`, tone height is `2 * 2em + 2 * strip`, each tone half has a 2em area, and the strip is empty iff there is no mean |
| Sparkcharts.BarGeometry | sparkcharts.js:337-350 | bar `i` sits at `i * (barWidth + gap)`, is at least 1 high, stands on the bottom edge and lies within the canvas; the last bar ends at the canvas width; with a bar area of at least 1 it stays clear of the indicator strip |
| Sparkcharts.ToneGeometry | sparkcharts.js:271-312 | both rects of point `i` have one height; the upper ends and the lower starts at `centerY`; both are shifted right by one gap and lie inside the padding; with a half-area of at least 1 they stay clear of both strips |
| Sparkcharts.DrawNeverWarns | sparkcharts.js:184-189 | the empty-range branch of `drawMeanLine` is unreachable from `prepare`'s output, so `draw` issues no warning |
| Sparkcharts.BarMeanPosition | sparkcharts.js:191-197 | in bar mode, an in-range mean puts the indicator between the first and last bar centres, and it moves right as the mean grows |
| Sparkcharts.BarMeanShapes | sparkcharts.js:227-246 | in bar mode the indicator adds, after the bars, a downward marker at y 0 as tall as the strip and centred on the mean's x, and a dashed line on that x from the strip to the bottom |
| Sparkcharts.ToneMeanShapes | sparkcharts.js:201-225 | in tone mode the indicator adds, after the baseline and the rect pairs, a downward marker at y 0, an upward marker at `height - markerHeight`, and a dashed line between the strips, all on the mean's x over the padded width |
| Sparkcharts.ToneMeanPosition | sparkcharts.js:268-324 | in tone mode the interpolation ends lie one gap outside the outer bar centres, and an in-range mean stays between them |
| Scenarios.NonNumericTokens | sparkcharts.js:36-59 | `a,2,b` gives the single point 2, scale 2, no indicator, and one warning naming `a` and `b` |
| Scenarios.AutoScaleHeights | sparkcharts.js:337-342 | `1,2,3` in bar mode: with a font of at least 1.5, bar `i` is `(i + 1) / 3` of the 2em area |
| Scenarios.AutoScale | sparkcharts.js:61-75 | `1,2,3` scales to 3 with no indicator and no warning |
| Scenarios.OverrideHonoured | sparkcharts.js:72-74 | `1,2,3;10` scales to 10 without a warning |
| Scenarios.OverrideAtLeastData | sparkcharts.js:61-75 | `1,2,3;max` with a finite override `v >= 3` scales to `v` without a warning |
| Scenarios.OverrideBelowData | sparkcharts.js:69-71 | `1,2,3;1` scales to 3 and warns that 1 is below the data maximum 3 |
| Scenarios.MeanSpecInMaxSlot | sparkcharts.js:31-34 | `5,10;0,20,15` puts `0,20,15` in the max slot: an invalid-max warning, scale 10, no indicator |
| Scenarios.ExplicitMean | sparkcharts.js:101-116 | `5,10;;0,20,15` sets the indicator to 15 on the range 0 to 20, silently |
| Scenarios.ExplicitMeanPosition | sparkcharts.js:193-197 | that indicator sits three quarters of the way from the first bar's centre to the last one's |
| Scenarios.ExplicitMeanPlaced | sparkcharts.js:193-197 | the indicator `prepare` sets for `5,10;;0,20,15` is placed three quarters of the way from the first bar's centre to the last one's |
| Scenarios.EmptySpec | sparkcharts.js:47-49 | an empty spec gives no chart |

## Left out

- DOM plumbing is not modelled: `querySelectorAll`, removing old warning elements, `createElementNS`, `setAttribute`, `replaceChildren` and the `textContent` reset (sparkcharts.js:12-17, 132-137). The shapes list stands in for the SVG tree.
- The style lookup is not modelled. `getComputedStyle` and `parseFloat` become the `computedFontSize` parameter of `Sparkchart`. The colour and its `currentColor` fallback (sparkcharts.js:28) carry no geometry and are dropped.
- The element's text is the `content` parameter. `el.textContent || ''` is the caller's concern.
- `console.warn`, the `QUIET` switch and the message wording are not modelled. A warning keeps its category and the values it quotes, but not their conversion to text.
- The `aria-label` and the `String(point)` titles are not modelled, because they need JavaScript's number-to-string conversion. A rect's title holds the point itself.
- `createTriangleMarker`'s outline is not modelled, because it uses `Math.sqrt(3)`. A `Marker` records the box the triangle is centred in, and its orientation.
- Stroke widths, dash patterns and `fill` are not modelled; a line only records whether it is dashed.
- Strings are sequences of Unicode scalar values, while JavaScript strings are UTF-16 code units, so a lone surrogate cannot be represented. This does not change any result: every separator and whitespace character the script looks for lies in the Basic Multilingual Plane.
- IEEE-754 arithmetic is replaced by real arithmetic. NaN and the infinities only appear as `Number` returning None. `Number` itself is a parameter, and the scenarios only assume its value on the literal tokens they use.
- `Sparkcharts.BarGeometry`: the clause keeping a bar clear of the indicator strip needs a bar area of at least 1, which is a font size of at least 0.5. Below that, the one-unit legibility floor makes every bar taller than its area.
- `Sparkcharts.ToneGeometry`: the same condition applies, for the same reason.
- `Scenarios.AutoScaleHeights` requires a font size of at least 1.5. Below that, the smallest bar falls under the legibility floor and is drawn 1 high instead.

=== FILE: chart.dfy ===
/** `prepare`: from the element's text to the chart options (points, scale,
    mean indicator, width), or to no chart at all. */
module Chart {
  import opened Wrappers
  import opened Diagnostics
  import opened Tokens
  import opened Scale
  import opened MeanSpec
  import opened Layout

  /** The options `prepare` hands to `draw`. */
  datatype Options = Options(
    points: seq<real>,      // the values of the valid tokens, negatives kept
    width: real,            // width of the bar run
    barWidth: real,
    gap: real,
    scaleMax: real,         // the value drawn at full bar height
    fontSize: real,
    mean: Option<Mean>)     // the indicator; None is the code's three nulls

  datatype Prepared = Prepared(opts: Options, warnings: seq<Warning>)

  /** The invariants of every options record `prepare` returns. */
  predicate ValidOptions(o: Options) {
    && |o.points| >= 1
    && o.fontSize > 0.0
    && o.barWidth == BarWidthEm * o.fontSize
    && o.gap == GapEm * o.fontSize
    && o.width == ChartWidth(|o.points|, o.barWidth, o.gap)
    && o.scaleMax >= DataMax(o.points)
    && (o.mean.Some? ==> ValidMean(o.mean.value))
  }

  /** The warnings about the point tokens: the rejected tokens, then the
      negative values, each only when there is one. */
  function TokenWarnings(invalid: seq<string>, negatives: seq<real>): (ws: seq<Warning>)
    ensures (NonNumeric(invalid) in ws) <==> invalid != []
    ensures (NegativeValues(negatives) in ws) <==> negatives != []
    ensures forall w :: w in ws ==> w == NonNumeric(invalid) || w == NegativeValues(negatives)
    ensures |ws| == (if invalid != [] then 1 else 0) + (if negatives != [] then 1 else 0)
    ensures invalid != [] ==> ws[0] == NonNumeric(invalid)
    ensures negatives != [] ==> ws[|ws| - 1] == NegativeValues(negatives)
  {
    (if invalid != [] then [NonNumeric(invalid)] else [])
    + (if negatives != [] then [NegativeValues(negatives)] else [])
  }

  /** The point tokens of a chart spec. */
  function SpecTokens(content: string): seq<string> {
    RawTokens(SplitContent(content).points)
  }

  /** `prepare(el)` without the style lookup and the SVG element: None is
      the code's `null`, returned (before any warning) when no token is a
      finite number. */
  function Prepare(parse: Parser, content: string, fontSize: real): (r: Option<Prepared>)
    ensures r.None? <==> Points(parse, SpecTokens(content)) == []
  {
    var points := Points(parse, SpecTokens(content));
    if points == [] then None
    else Some(Assemble(parse, SplitContent(content), points, fontSize))
  }

  /** The part of `prepare` after the empty-series check: warnings about the
      points, the scale, the mean spec and the width. */
  function Assemble(parse: Parser, seg: Segments, points: seq<real>, fontSize: real): (p: Prepared)
    requires |points| >= 1
    requires points == Points(parse, RawTokens(seg.points))
    ensures p.opts.points == points && p.opts.fontSize == fontSize
    ensures fontSize > 0.0 ==> ValidOptions(p.opts)
    ensures var tw := TokenWarnings(InvalidTokens(parse, RawTokens(seg.points)), Negatives(points));
            && |tw| <= |p.warnings| && p.warnings[..|tw|] == tw
            && forall k :: |tw| <= k < |p.warnings| ==> !AboutPoints(p.warnings[k])
    ensures var tw := TokenWarnings(InvalidTokens(parse, RawTokens(seg.points)), Negatives(points));
            var scaled := ResolveScale(DataMax(points), ReadOverride(parse, seg.max));
            var meanParse := ParseMean(parse, seg.mean);
            && p.opts.scaleMax == scaled.scaleMax
            && p.opts.mean == meanParse.mean
            && p.warnings == tw + scaled.warnings + meanParse.warnings
  {
    var dataMax := DataMax(points);
    var scaled := ResolveScale(dataMax, ReadOverride(parse, seg.max));
    var meanParse := ParseMean(parse, seg.mean);
    var barWidth := BarWidthEm * fontSize;
    var gap := GapEm * fontSize;
    var width := ChartWidth(|points|, barWidth, gap);
    var tw := TokenWarnings(InvalidTokens(parse, RawTokens(seg.points)), Negatives(points));
    WarningsAfterTokens(tw, scaled.warnings, meanParse.warnings);
    Prepared(
      Options(points, width, barWidth, gap, scaled.scaleMax, fontSize, meanParse.mean),
      tw + scaled.warnings + meanParse.warnings)
  }

  lemma WarningsAfterTokens(tw: seq<Warning>, a: seq<Warning>, b: seq<Warning>)
    requires forall k :: 0 <= k < |a| ==> !AboutPoints(a[k])
    requires forall k :: 0 <= k < |b| ==> !AboutPoints(b[k])
    ensures (tw + a + b)[..|tw|] == tw
    ensures forall k :: |tw| <= k < |tw + a + b| ==> !AboutPoints((tw + a + b)[k])
  {
    forall k | |tw| <= k < |tw + a + b|
      ensures !AboutPoints((tw + a + b)[k])
    {
      if k < |tw| + |a| {
        assert (tw + a + b)[k] == a[k - |tw|];
      } else {
        assert (tw + a + b)[k] == b[k - |tw| - |a|];
      }
    }
  }

  /** The warnings of a chart start with the token warnings; every later one
      is about the scale or the mean spec. */
  lemma PrepareTokenWarnings(parse: Parser, content: string, fontSize: real)
    requires Prepare(parse, content, fontSize).Some?
    ensures var p := Prepare(parse, content, fontSize).value;
            var tw := TokenWarnings(InvalidTokens(parse, SpecTokens(content)), Negatives(p.opts.points));
            && p.opts.points == Points(parse, SpecTokens(content))
            && |tw| <= |p.warnings| && p.warnings[..|tw|] == tw
            && forall k :: |tw| <= k < |p.warnings| ==> !AboutPoints(p.warnings[k])
  {
    var points := Points(parse, SpecTokens(content));
    assert Prepare(parse, content, fontSize).value == Assemble(parse, SplitContent(content), points, fontSize);
  }

  /** Every chart `prepare` produces satisfies the options invariants: at
      least one point, `scaleMax >= dataMax`, the em-based sizes, and a
      well-formed mean indicator. */
  lemma PrepareValidOptions(parse: Parser, content: string, fontSize: real)
    requires fontSize > 0.0
    requires Prepare(parse, content, fontSize).Some?
    ensures ValidOptions(Prepare(parse, content, fontSize).value.opts)
  {
  }
}

=== FILE: diagnostics.dfy ===
/** The warnings the pipeline reports instead of writing to the console. Each
    carries the data its console message embeds; the English wording and the
    number-to-text conversion of the message are not modelled. None of them
    stops the chart from being drawn. */
module Diagnostics {
  import opened Wrappers

  datatype Warning =
    /** Point tokens that are empty or not a finite number, in input order. */
    | NonNumeric(tokens: seq<string>)
    /** Negative points, in input order; they are drawn as zero. */
    | NegativeValues(values: seq<real>)
    /** The max override is not finite (None) or is negative (Some). */
    | InvalidMax(userMax: Option<real>)
    /** The max override is below the largest data point. */
    | MaxBelowData(overrideMax: real, dataMax: real)
    /** The one-token mean is not a finite number. */
    | InvalidMean(token: string)
    /** A three-token mean spec has a token that is not a finite number. */
    | InvalidMeanSpec(text: string)
    /** The explicit mean range is empty or inverted. */
    | MeanRangeInverted(lo: real, hi: real)
    /** The mean value is negative. */
    | NegativeMean(value: real)
    /** An explicit mean lies outside its own range (it is still drawn). */
    | MeanOutOfRange(value: real, lo: real, hi: real)
    /** The mean spec has neither one nor three tokens. */
    | MeanArity(text: string)
    /** The mean range seen at drawing time is empty. */
    | InvalidMeanRange(lo: real, hi: real)

  /** The two warnings about the point tokens themselves. */
  predicate AboutPoints(w: Warning) {
    w.NonNumeric? || w.NegativeValues?
  }
}

=== FILE: layout.dfy ===
/** Layout engine: the em-based measurements and the affine arithmetic that
    places bars and the mean indicator. All lengths are in user units (CSS
    pixels), computed over the reals. */
module Layout {
  import opened Wrappers

  const BarWidthEm: real := 1.0
  const HeightEm: real := 2.0
  const GapEm: real := 0.2
  const MeanMarkerHeightEm: real := 0.6
  const FallbackFontSize: real := 16.0

  function Max(a: real, b: real): real {
    if a >= b then a else b
  }

  /** `parseFloat(computed.fontSize) || 16`: NaN (None) and 0 fall back to 16. */
  function ResolveFontSize(parsed: Option<real>): (fs: real)
    ensures parsed.None? || parsed.value == 0.0 ==> fs == FallbackFontSize
    ensures parsed.Some? && parsed.value != 0.0 ==> fs == parsed.value
    ensures (parsed.None? || parsed.value >= 0.0) ==> fs > 0.0
  {
    match parsed
    case None => FallbackFontSize
    case Some(v) => if v == 0.0 then FallbackFontSize else v
  }

  /** Left edge of bar `i`: `padding + i * (barWidth + gap)`. */
  function BarX(i: nat, barWidth: real, gap: real, padding: real): real {
    padding + (i as real) * (barWidth + gap)
  }

  /** Consecutive bars are one pitch apart, so with a non-negative gap no two
      bars overlap. */
  lemma BarsDoNotOverlap(i: nat, barWidth: real, gap: real, padding: real)
    requires gap >= 0.0
    ensures BarX(i + 1, barWidth, gap, padding) - BarX(i, barWidth, gap, padding) == barWidth + gap
    ensures BarX(i, barWidth, gap, padding) + barWidth <= BarX(i + 1, barWidth, gap, padding)
  {
  }

  /** Bar positions grow with the index. */
  lemma {:induction false} BarXMonotone(i: nat, j: nat, barWidth: real, gap: real, padding: real)
    requires i <= j && barWidth + gap >= 0.0
    ensures BarX(i, barWidth, gap, padding) <= BarX(j, barWidth, gap, padding)
  {
    MulMonotone(i as real, j as real, barWidth + gap);
  }

  lemma MulMonotone(a: real, b: real, c: real)
    requires a <= b && c >= 0.0
    ensures a * c <= b * c
  {
    assert b * c - a * c == (b - a) * c;
  }

  lemma DivMonotone(a: real, b: real, c: real)
    requires a <= b && c > 0.0
    ensures a / c <= b / c
  {
    assert a / c == a * (1.0 / c);
    assert b / c == b * (1.0 / c);
    MulMonotone(a, b, 1.0 / c);
  }

  /** Total width of `n` bars: `n * barWidth + max(0, (n - 1) * gap)`. */
  function ChartWidth(n: nat, barWidth: real, gap: real): (w: real)
    ensures n >= 1 && gap >= 0.0 ==> w == BarX(n - 1, barWidth, gap, 0.0) + barWidth
    ensures n == 0 && gap >= 0.0 ==> w == 0.0
  {
    var nr := n as real;
    var w := nr * barWidth + Max(0.0, (nr - 1.0) * gap);
    assert n >= 1 && gap >= 0.0 ==> w == (nr - 1.0) * (barWidth + gap) + barWidth by {
      if n >= 1 && gap >= 0.0 {
        MulMonotone(0.0, nr - 1.0, gap);
        assert nr * barWidth == (nr - 1.0) * barWidth + barWidth;
      }
    }
    w
  }

  /** Width of the data region holds at least one bar once there is a point. */
  lemma ChartWidthAtLeastOneBar(n: nat, barWidth: real, gap: real)
    requires n >= 1 && gap >= 0.0 && barWidth >= 0.0
    ensures ChartWidth(n, barWidth, gap) >= barWidth
  {
    MulMonotone(0.0, (n - 1) as real, barWidth + gap);
  }

  /** Height of the indicator strip: 0.6em with a mean, nothing without. */
  function MarkerHeight(hasMean: bool, fontSize: real): (mh: real)
    ensures fontSize > 0.0 ==> (mh == 0.0 <==> !hasMean)
    ensures fontSize > 0.0 ==> mh >= 0.0
  {
    if hasMean then MeanMarkerHeightEm * fontSize else 0.0
  }

  /** `h`: the point, clamped at zero, as a share of `scaleMax` of the bar
      area; zero when `scaleMax` is not positive. */
  function ScaledHeight(point: real, scaleMax: real, area: real): (h: real)
    ensures area >= 0.0 ==> h >= 0.0
    ensures area >= 0.0 && point <= scaleMax ==> h <= area
    ensures area > 0.0 ==> (h == 0.0 <==> point <= 0.0 || scaleMax <= 0.0)
  {
    if scaleMax > 0.0 then
      ShareFacts(Max(0.0, point), scaleMax, area);
      Max(0.0, point) / scaleMax * area
    else 0.0
  }

  /** Bounds on `c / s * area` for `0 <= c`. */
  lemma ShareFacts(c: real, s: real, area: real)
    requires 0.0 <= c && s > 0.0
    ensures area >= 0.0 ==> c / s * area >= 0.0
    ensures area >= 0.0 && c <= s ==> c / s * area <= area
    ensures area > 0.0 ==> (c / s * area == 0.0 <==> c == 0.0)
  {
    var share := c / s;
    assert share >= 0.0;
    if area >= 0.0 {
      MulMonotone(0.0, share, area);
    }
    if area >= 0.0 && c <= s {
      DivMonotone(c, s, s);
      assert s / s == 1.0;
      MulMonotone(share, 1.0, area);
    }
    if area > 0.0 && c > 0.0 {
      assert share > 0.0;
      assert share * area > 0.0;
    }
  }

  /** The rendered bar height: `h`, but never under one unit (the
      legibility floor), so zero and tiny values stay visible. */
  function BarHeight(point: real, scaleMax: real, area: real): (bh: real)
    ensures bh >= 1.0
    ensures ScaledHeight(point, scaleMax, area) >= 1.0 ==> bh == ScaledHeight(point, scaleMax, area)
    ensures area >= 0.0 ==> (bh == 1.0 <==> ScaledHeight(point, scaleMax, area) <= 1.0)
    ensures area >= 0.0 && point <= scaleMax ==> bh <= Max(1.0, area)
  {
    var h := ScaledHeight(point, scaleMax, area);
    if h == 0.0 then 1.0 else Max(1.0, h)
  }

  /** A point equal to `scaleMax` fills the bar area exactly. */
  lemma ScaledHeightFull(scaleMax: real, area: real)
    requires scaleMax > 0.0
    ensures ScaledHeight(scaleMax, scaleMax, area) == area
  {
    assert Max(0.0, scaleMax) == scaleMax;
    assert scaleMax / scaleMax == 1.0;
  }

  /** Heights add up like the non-negative points they scale. */
  lemma ScaledHeightAdditive(p: real, q: real, scaleMax: real, area: real)
    requires 0.0 <= p && 0.0 <= q
    ensures ScaledHeight(p + q, scaleMax, area) == ScaledHeight(p, scaleMax, area) + ScaledHeight(q, scaleMax, area)
  {
    if scaleMax > 0.0 {
      assert Max(0.0, p + q) == p + q && Max(0.0, p) == p && Max(0.0, q) == q;
      assert (p + q) / scaleMax == p / scaleMax + q / scaleMax;
      assert (p / scaleMax + q / scaleMax) * area == p / scaleMax * area + q / scaleMax * area;
    }
  }

  /** Proportionality: `h` is to `area` as the clamped point is to `scaleMax`. */
  lemma ScaledHeightProportional(point: real, scaleMax: real, area: real)
    requires scaleMax > 0.0
    ensures ScaledHeight(point, scaleMax, area) * scaleMax == Max(0.0, point) * area
  {
    var c := Max(0.0, point);
    assert c / scaleMax * scaleMax == c;
    assert c / scaleMax * area * scaleMax == c / scaleMax * scaleMax * area;
  }

  /** Larger values never give shorter bars. */
  lemma BarHeightMonotone(p: real, q: real, scaleMax: real, area: real)
    requires p <= q && area >= 0.0
    ensures BarHeight(p, scaleMax, area) <= BarHeight(q, scaleMax, area)
  {
    ScaledHeightMonotone(p, q, scaleMax, area);
  }

  lemma ScaledHeightMonotone(p: real, q: real, scaleMax: real, area: real)
    requires p <= q && area >= 0.0
    ensures ScaledHeight(p, scaleMax, area) <= ScaledHeight(q, scaleMax, area)
  {
    if scaleMax > 0.0 {
      var cp, cq := Max(0.0, p), Max(0.0, q);
      DivMonotone(cp, cq, scaleMax);
      MulMonotone(cp / scaleMax, cq / scaleMax, area);
      assert ScaledHeight(p, scaleMax, area) == cp / scaleMax * area;
      assert ScaledHeight(q, scaleMax, area) == cq / scaleMax * area;
    }
  }

  /** x-position of the mean indicator: the mean's share of its range,
      interpolated from `barWidth / 2` to `width - barWidth / 2`. */
  function MeanX(value: real, lo: real, hi: real, width: real, barWidth: real): real
    requires lo < hi
  {
    var first := barWidth / 2.0;
    var last := width - barWidth / 2.0;
    first + (value - lo) / (hi - lo) * (last - first)
  }

  /** The range's ends map to the interpolation's ends. */
  lemma MeanXEndpoints(lo: real, hi: real, width: real, barWidth: real)
    requires lo < hi
    ensures MeanX(lo, lo, hi, width, barWidth) == barWidth / 2.0
    ensures MeanX(hi, lo, hi, width, barWidth) == width - barWidth / 2.0
  {
    assert (hi - lo) / (hi - lo) == 1.0;
  }

  /** A larger mean never moves the indicator left. */
  lemma MeanXMonotone(v: real, w: real, lo: real, hi: real, width: real, barWidth: real)
    requires lo < hi && v <= w && width >= barWidth
    ensures MeanX(v, lo, hi, width, barWidth) <= MeanX(w, lo, hi, width, barWidth)
  {
    var span := width - barWidth / 2.0 - barWidth / 2.0;
    DivMonotone(v - lo, w - lo, hi - lo);
    MulMonotone((v - lo) / (hi - lo), (w - lo) / (hi - lo), span);
  }

  /** A mean inside its range puts the indicator between the interpolation's ends. */
  lemma MeanXWithin(value: real, lo: real, hi: real, width: real, barWidth: real)
    requires lo <= value <= hi && lo < hi && width >= barWidth
    ensures barWidth / 2.0 <= MeanX(value, lo, hi, width, barWidth) <= width - barWidth / 2.0
  {
    MeanXMonotone(lo, value, lo, hi, width, barWidth);
    MeanXMonotone(value, hi, lo, hi, width, barWidth);
    MeanXEndpoints(lo, hi, width, barWidth);
  }
}

=== FILE: meanspec.dfy ===
/** Mean spec parser: the optional third segment, either `mean` (range 0 to
    100) or `min, max, mean`. */
module MeanSpec {
  import opened Wrappers
  import opened Strings
  import opened Diagnostics
  import Tokens

  /** A mean indicator: `value` placed on the range `lo` to `hi`. */
  datatype Mean = Mean(value: real, lo: real, hi: real)

  /** The invariant every accepted indicator satisfies. */
  predicate ValidMean(m: Mean) {
    m.lo < m.hi && m.value >= 0.0
  }

  datatype MeanParse = MeanParse(mean: Option<Mean>, warnings: seq<Warning>)

  /** The mean tokens: like the point tokens, but empty ones are dropped. */
  function MeanTokens(meanData: string): (toks: seq<string>)
    ensures forall i :: 0 <= i < |toks| ==> toks[i] != [] && IsTrimmed(toks[i]) && ',' !in toks[i]
  {
    var raw := Tokens.RawTokens(meanData);
    var r := NonEmpty(raw);
    assert forall i :: 0 <= i < |r| ==> r[i] in raw;
    r
  }

  /** The inverse of `MeanTokens`: clean tokens joined with `,` tokenise back
      to themselves, less the empty ones. */
  lemma MeanTokensJoin(toks: seq<string>)
    requires |toks| >= 1
    requires forall i :: 0 <= i < |toks| ==> IsTrimmed(toks[i]) && ',' !in toks[i] && '\n' !in toks[i]
    ensures MeanTokens(Join(toks, ',')) == NonEmpty(toks)
    ensures (forall i :: 0 <= i < |toks| ==> toks[i] != []) ==> MeanTokens(Join(toks, ',')) == toks
  {
    Tokens.RawTokensJoin(toks);
    if forall i :: 0 <= i < |toks| ==> toks[i] != [] {
      NonEmptyAllKept(toks);
    }
  }

  /** The one-token form is accepted: a finite, non-negative number. */
  predicate AcceptsImplicit(parse: Tokens.Parser, toks: seq<string>) {
    |toks| == 1 && parse(toks[0]).Some? && parse(toks[0]).value >= 0.0
  }

  /** The three-token form is accepted: three finite numbers `min, max, mean`
      with `min < max` and `mean >= 0`. */
  predicate AcceptsExplicit(parse: Tokens.Parser, toks: seq<string>) {
    && |toks| == 3
    && parse(toks[0]).Some? && parse(toks[1]).Some? && parse(toks[2]).Some?
    && parse(toks[0]).value < parse(toks[1]).value
    && parse(toks[2]).value >= 0.0
  }

  /** Decides the mean spec from its non-empty tokens; `meanData` is the
      segment text the warnings quote. */
  function ParseMeanTokens(parse: Tokens.Parser, toks: seq<string>, meanData: string): (r: MeanParse)
    ensures r.mean.Some? <==> AcceptsImplicit(parse, toks) || AcceptsExplicit(parse, toks)
    ensures r.mean.Some? ==> ValidMean(r.mean.value)
    ensures r.mean.Some? && |toks| == 1 ==>
              r.mean.value == Mean(parse(toks[0]).value, 0.0, 100.0) && r.warnings == []
    ensures r.mean.Some? && |toks| == 3 ==>
              && parse(toks[0]) == Some(r.mean.value.lo)
              && parse(toks[1]) == Some(r.mean.value.hi)
              && parse(toks[2]) == Some(r.mean.value.value)
              && (r.warnings == [] <==> r.mean.value.lo <= r.mean.value.value <= r.mean.value.hi)
    ensures r.mean.None? ==> |r.warnings| == 1
    ensures |toks| == 1 && parse(toks[0]).None? ==> r == MeanParse(None, [InvalidMean(toks[0])])
    ensures |toks| == 1 && parse(toks[0]).Some? && parse(toks[0]).value < 0.0 ==>
              r == MeanParse(None, [NegativeMean(parse(toks[0]).value)])
    ensures |toks| == 3 && (parse(toks[0]).None? || parse(toks[1]).None? || parse(toks[2]).None?) ==>
              r == MeanParse(None, [InvalidMeanSpec(meanData)])
    ensures |toks| == 3 && parse(toks[0]).Some? && parse(toks[1]).Some? && parse(toks[2]).Some? ==>
              var lo, hi, m := parse(toks[0]).value, parse(toks[1]).value, parse(toks[2]).value;
              && (lo >= hi ==> r == MeanParse(None, [MeanRangeInverted(lo, hi)]))
              && (lo < hi && m < 0.0 ==> r == MeanParse(None, [NegativeMean(m)]))
              && (lo < hi && 0.0 <= m && (m < lo || m > hi) ==> r.warnings == [MeanOutOfRange(m, lo, hi)])
    ensures |toks| != 1 && |toks| != 3 ==> r == MeanParse(None, [MeanArity(meanData)])
    ensures |r.warnings| <= 1
    ensures forall k :: 0 <= k < |r.warnings| ==> !AboutPoints(r.warnings[k])
  {
    if |toks| == 1 then
      match parse(toks[0])
      case None => MeanParse(None, [InvalidMean(toks[0])])
      case Some(m) =>
        if m < 0.0 then MeanParse(None, [NegativeMean(m)])
        else MeanParse(Some(Mean(m, 0.0, 100.0)), [])
    else if |toks| == 3 then
      match (parse(toks[0]), parse(toks[1]), parse(toks[2]))
      case (Some(lo), Some(hi), Some(m)) =>
        if lo >= hi then MeanParse(None, [MeanRangeInverted(lo, hi)])
        else if m < 0.0 then MeanParse(None, [NegativeMean(m)])
        else if m < lo || m > hi then MeanParse(Some(Mean(m, lo, hi)), [MeanOutOfRange(m, lo, hi)])
        else MeanParse(Some(Mean(m, lo, hi)), [])
      case _ => MeanParse(None, [InvalidMeanSpec(meanData)])
    else
      MeanParse(None, [MeanArity(meanData)])
  }

  /** `if (meanData) { ... }`: an absent or empty third segment means no
      indicator and no warning. */
  function ParseMean(parse: Tokens.Parser, meanData: Option<string>): (r: MeanParse)
    ensures (meanData.None? || meanData.value == []) ==> r == MeanParse(None, [])
    ensures r.mean.Some? ==> ValidMean(r.mean.value)
    ensures meanData.Some? && meanData.value != [] ==>
              (r.mean.Some? <==> AcceptsImplicit(parse, MeanTokens(meanData.value))
                                 || AcceptsExplicit(parse, MeanTokens(meanData.value)))
    ensures r.mean.None? && meanData.Some? && meanData.value != [] ==> |r.warnings| == 1
    ensures meanData.Some? && meanData.value != [] ==>
              r == ParseMeanTokens(parse, MeanTokens(meanData.value), meanData.value)
    ensures forall k :: 0 <= k < |r.warnings| ==> !AboutPoints(r.warnings[k])
  {
    match meanData
    case None => MeanParse(None, [])
    case Some(text) =>
      if text == [] then MeanParse(None, [])
      else ParseMeanTokens(parse, MeanTokens(text), text)
  }
}

=== FILE: render.dfy ===
/** Renderer: `draw`, `drawBars`, `drawTone` and `drawMeanLine` as functions
    from the prepared options to a list of shapes on a canvas. Colours,
    stroke widths and the triangle's outline are not modelled. */
module Render {
  import opened Wrappers
  import opened Diagnostics
  import opened MeanSpec
  import opened Layout
  import opened Chart

  /** `data-sparkchart-mode`: "tone", or bars for anything else. */
  datatype Mode = Bars | Tone

  /** `el.getAttribute('data-sparkchart-mode') || 'bars'`, then `mode === 'tone'`. */
  function ModeOf(attr: Option<string>): (m: Mode)
    ensures m == Tone <==> attr == Some("tone")
  {
    if attr == Some("tone") then Tone else Bars
  }

  datatype Shape =
    /** A bar; `title` is the point's own, unclamped value. */
    | Rect(x: real, y: real, w: real, h: real, title: Option<real>)
    | Line(x1: real, y1: real, x2: real, y2: real, dashed: bool)
    /** `createTriangleMarker(x, y, w, h, pointDown)`: a triangle `h` high,
        centred on `x + w / 2`, with its flat side at `y` (pointing down) or
        at `y + h` (pointing up). */
    | Marker(x: real, y: real, w: real, h: real, pointDown: bool, title: Option<real>)

  datatype Svg = Svg(width: real, height: real, shapes: seq<Shape>)

  datatype Drawing = Drawing(svg: Svg, warnings: seq<Warning>)

  /** The indicator's shapes and the warning `drawMeanLine` may issue. */
  datatype Overlay = Overlay(shapes: seq<Shape>, warnings: seq<Warning>)

  /** `drawMeanLine`: nothing without a mean; a warning and nothing for an
      empty range; otherwise a top marker and a dashed line, plus a bottom
      marker in tone mode, all centred on `MeanX`. */
  function DrawMeanLine(mean: Option<Mean>, height: real, markerHeight: real, width: real,
                        barWidth: real, tone: bool): (r: Overlay)
    ensures mean.None? ==> r == Overlay([], [])
    ensures mean.Some? && mean.value.hi - mean.value.lo <= 0.0 ==>
              r == Overlay([], [InvalidMeanRange(mean.value.lo, mean.value.hi)])
    ensures mean.Some? && mean.value.hi - mean.value.lo > 0.0 ==>
              && r.warnings == []
              && |r.shapes| == (if tone then 3 else 2)
              && (forall k :: 0 <= k < |r.shapes| ==>
                    var x := MeanX(mean.value.value, mean.value.lo, mean.value.hi, width, barWidth);
                    (r.shapes[k].Marker? && r.shapes[k].x + r.shapes[k].w / 2.0 == x)
                    || (r.shapes[k].Line? && r.shapes[k].x1 == x && r.shapes[k].x2 == x))
    ensures mean.Some? && mean.value.hi - mean.value.lo > 0.0 ==>
              var x := MeanX(mean.value.value, mean.value.lo, mean.value.hi, width, barWidth);
              var left := x - barWidth / 2.0;
              && |r.shapes| >= 2
              && r.shapes[0] == Marker(left, 0.0, barWidth, markerHeight, true, Some(mean.value.value))
              && (!tone ==> r.shapes[1] == Line(x, markerHeight, x, height, true))
              && (tone ==> |r.shapes| == 3
                           && r.shapes[1] == Marker(left, height - markerHeight, barWidth, markerHeight, false, None)
                           && r.shapes[2] == Line(x, markerHeight, x, height - markerHeight, true))
  {
    match mean
    case None => Overlay([], [])
    case Some(m) =>
      if m.hi - m.lo <= 0.0 then Overlay([], [InvalidMeanRange(m.lo, m.hi)])
      else
        var meanX := MeanX(m.value, m.lo, m.hi, width, barWidth);
        var markerWidth := barWidth;
        var markerX := meanX - markerWidth / 2.0;
        var top := Marker(markerX, 0.0, markerWidth, markerHeight, true, Some(m.value));
        if tone then
          Overlay([top,
                   Marker(markerX, height - markerHeight, markerWidth, markerHeight, false, None),
                   Line(meanX, markerHeight, meanX, height - markerHeight, true)], [])
        else
          Overlay([top, Line(meanX, markerHeight, meanX, height, true)], [])
  }

  /** The bar of point `i` in bar mode, standing on the bottom edge. */
  function BarRect(o: Options, height: real, area: real, i: nat): Shape
    requires i < |o.points|
  {
    var bh := BarHeight(o.points[i], o.scaleMax, area);
    Rect(BarX(i, o.barWidth, o.gap, 0.0), height - bh, o.barWidth, bh, Some(o.points[i]))
  }

  /** `drawBars`: one rect per point, then the indicator. */
  function DrawBars(o: Options, height: real, markerHeight: real): (d: Drawing)
    ensures d.svg.width == o.width && d.svg.height == height
    ensures |d.svg.shapes| >= |o.points|
    ensures o.mean.None? ==> |d.svg.shapes| == |o.points| && d.warnings == []
    ensures forall i :: 0 <= i < |o.points| ==> d.svg.shapes[i] == BarRect(o, height, height - markerHeight, i)
  {
    var area := height - markerHeight;
    var rects := seq(|o.points|, i requires 0 <= i < |o.points| => BarRect(o, height, area, i));
    var overlay := DrawMeanLine(o.mean, height, markerHeight, o.width, o.barWidth, false);
    Drawing(Svg(o.width, height, rects + overlay.shapes), overlay.warnings)
  }

  /** The upper half of point `i` in tone mode: it ends at the centre line. */
  function ToneAbove(o: Options, centerY: real, area: real, i: nat): Shape
    requires i < |o.points|
  {
    var bh := BarHeight(o.points[i], o.scaleMax, area);
    Rect(BarX(i, o.barWidth, o.gap, o.gap), centerY - bh, o.barWidth, bh, Some(o.points[i]))
  }

  /** The lower half, its mirror image: it starts at the centre line. */
  function ToneBelow(o: Options, centerY: real, area: real, i: nat): Shape
    requires i < |o.points|
  {
    var bh := BarHeight(o.points[i], o.scaleMax, area);
    Rect(BarX(i, o.barWidth, o.gap, o.gap), centerY, o.barWidth, bh, None)
  }

  /** `drawTone`: the canvas is widened by a gap on each side; a baseline at
      mid height, then an upper and a lower rect per point, then the indicator. */
  function DrawTone(o: Options, height: real, markerHeight: real): (d: Drawing)
    ensures d.svg.width == o.width + 2.0 * o.gap && d.svg.height == height
    ensures |d.svg.shapes| >= 1 + 2 * |o.points|
    ensures d.svg.shapes[0] == Line(0.0, height / 2.0, d.svg.width, height / 2.0, false)
    ensures o.mean.None? ==> |d.svg.shapes| == 1 + 2 * |o.points| && d.warnings == []
    ensures forall i :: 0 <= i < |o.points| ==>
              && d.svg.shapes[1 + 2 * i] == ToneAbove(o, height / 2.0, (height - markerHeight * 2.0) / 2.0, i)
              && d.svg.shapes[2 + 2 * i] == ToneBelow(o, height / 2.0, (height - markerHeight * 2.0) / 2.0, i)
  {
    var padding := o.gap;
    var paddedWidth := o.width + 2.0 * padding;
    var centerY := height / 2.0;
    var area := (height - markerHeight * 2.0) / 2.0;
    var baseline := Line(0.0, centerY, paddedWidth, centerY, false);
    var rects := TonePairs(o, centerY, area, |o.points|);
    var overlay := DrawMeanLine(o.mean, height, markerHeight, paddedWidth, o.barWidth, true);
    var shapes := [baseline] + rects + overlay.shapes;
    assert forall k :: 0 <= k < |rects| ==> shapes[1 + k] == rects[k];
    Drawing(Svg(paddedWidth, height, shapes), overlay.warnings)
  }

  /** The rects of the first `n` points in tone mode, upper half then lower
      half for each point in turn (the order `forEach` appends them). */
  function TonePairs(o: Options, centerY: real, area: real, n: nat): (r: seq<Shape>)
    requires n <= |o.points|
    ensures |r| == 2 * n
    ensures forall i :: 0 <= i < n ==>
              r[2 * i] == ToneAbove(o, centerY, area, i) && r[2 * i + 1] == ToneBelow(o, centerY, area, i)
  {
    if n == 0 then []
    else TonePairs(o, centerY, area, n - 1) + [ToneAbove(o, centerY, area, n - 1), ToneBelow(o, centerY, area, n - 1)]
  }

  /** Canvas height: 2em of bars plus the indicator strip in bar mode; two
      mirrored halves, each with its own strip, in tone mode. */
  function CanvasHeight(mode: Mode, fontSize: real, markerHeight: real): real {
    match mode
    case Tone => HeightEm * fontSize * 2.0 + markerHeight * 2.0
    case Bars => HeightEm * fontSize + markerHeight
  }

  /** `draw(el, opts)`: picks the mode, sizes the canvas and renders. */
  function Draw(o: Options, mode: Mode): (d: Drawing)
    ensures d.svg.height == CanvasHeight(mode, o.fontSize, MarkerHeight(o.mean.Some?, o.fontSize))
  {
    var markerHeight := MarkerHeight(o.mean.Some?, o.fontSize);
    var height := CanvasHeight(mode, o.fontSize, markerHeight);
    match mode
    case Tone => DrawTone(o, height, markerHeight)
    case Bars => DrawBars(o, height, markerHeight)
  }
}

=== FILE: scale.dfy ===
/** Scale resolver: the value drawn at full bar height. */
module Scale {
  import opened Wrappers
  import opened Diagnostics
  import Tokens

  /** `Math.max(...points, 0)`: the largest point, or 0 when every point is
      negative (or there are none). */
  function DataMax(points: seq<real>): (m: real)
    ensures m >= 0.0
    ensures forall i :: 0 <= i < |points| ==> points[i] <= m
    ensures m == 0.0 || m in points
  {
    if points == [] then 0.0
    else
      var rest := DataMax(points[1..]);
      if points[0] >= rest then points[0] else rest
  }

  /** `DataMax` is the least non-negative upper bound of the points. */
  lemma DataMaxLeast(points: seq<real>, bound: real)
    requires bound >= 0.0
    requires forall i :: 0 <= i < |points| ==> points[i] <= bound
    ensures DataMax(points) <= bound
  {
    var m := DataMax(points);
    if m != 0.0 {
      var i :| 0 <= i < |points| && points[i] == m;
    }
  }

  /** What `maxData ? Number(maxData) : null` yields. */
  datatype Override =
    | Absent              // no second segment, or an empty one
    | NotFinite           // `Number` gave NaN or an infinity
    | Finite(value: real)

  function ReadOverride(parse: Tokens.Parser, maxData: Option<string>): (o: Override)
    ensures o.Absent? <==> maxData.None? || maxData.value == []
    ensures o.NotFinite? ==> parse(maxData.value).None?
    ensures o.Finite? ==> parse(maxData.value) == Some(o.value)
  {
    match maxData
    case None => Absent
    case Some(t) =>
      if t == [] then Absent
      else match parse(t)
        case None => NotFinite
        case Some(v) => Finite(v)
  }

  datatype Scaled = Scaled(scaleMax: real, warnings: seq<Warning>)

  /** Honours an override only when it is finite and at least `dataMax`;
      otherwise warns and falls back to `dataMax`. */
  function ResolveScale(dataMax: real, o: Override): (s: Scaled)
    requires dataMax >= 0.0
    ensures s.scaleMax >= dataMax
    ensures (o.Finite? && s.scaleMax == o.value) <==> (o.Finite? && o.value >= dataMax)
    ensures !(o.Finite? && o.value >= dataMax) ==> s.scaleMax == dataMax
    ensures s.warnings == [] <==> o.Absent? || (o.Finite? && o.value >= dataMax)
    ensures o.NotFinite? ==> s.warnings == [InvalidMax(None)]
    ensures o.Finite? && o.value < 0.0 ==> s.warnings == [InvalidMax(Some(o.value))]
    ensures o.Finite? && 0.0 <= o.value < dataMax ==> s.warnings == [MaxBelowData(o.value, dataMax)]
    ensures forall k :: 0 <= k < |s.warnings| ==> !AboutPoints(s.warnings[k])
  {
    match o
    case Absent => Scaled(dataMax, [])
    case NotFinite => Scaled(dataMax, [InvalidMax(None)])
    case Finite(u) =>
      if u < 0.0 then Scaled(dataMax, [InvalidMax(Some(u))])
      else if u < dataMax then Scaled(dataMax, [MaxBelowData(u, dataMax)])
      else Scaled(u, [])
  }
}

=== FILE: scenarios.dfy ===
/** Worked examples: concrete chart specs pushed through `prepare`, each under
    the facts about `Number` that JavaScript guarantees for its tokens. */
module Scenarios {
  import opened Wrappers
  import opened Strings
  import opened Diagnostics
  import opened Tokens
  import opened Scale
  import opened MeanSpec
  import opened Layout
  import opened Chart
  import opened Render

  /** `"a,2,b"`: one point, and one warning naming both rejected tokens. */
  lemma NonNumericTokens(parse: Parser, fontSize: real)
    requires parse("a") == None && parse("2") == Some(2.0) && parse("b") == None
    ensures Prepare(parse, "a,2,b", fontSize).Some?
    ensures var p := Prepare(parse, "a,2,b", fontSize).value;
            && p.opts.points == [2.0]
            && p.opts.scaleMax == 2.0
            && p.opts.mean == None
            && p.warnings == [NonNumeric(["a", "b"])]
  {
    NonNumericText();
    OneAmongRejects(parse, "a,2,b", "a", "2", "b", 2.0, fontSize);
  }

  /** A points-only spec whose middle token is the only number. */
  lemma OneAmongRejects(parse: Parser, content: string, x: string, y: string, z: string, v: real, fontSize: real)
    requires SplitContent(content) == Segments(content, None, None)
    requires RawTokens(content) == [x, y, z]
    requires !IsValid(parse, x) && y != [] && parse(y) == Some(v) && !IsValid(parse, z) && v >= 0.0
    ensures Prepare(parse, content, fontSize).Some?
    ensures var p := Prepare(parse, content, fontSize).value;
            && p.opts.points == [v]
            && p.opts.scaleMax == v
            && p.opts.mean == None
            && p.warnings == [NonNumeric([x, z])]
  {
    var seg := Segments(content, None, None);
    RejectsFilters(parse, x, y, z, v);
    AssembleOneAmongRejects(parse, seg, x, y, z, v, fontSize);
    assert Prepare(parse, content, fontSize) == Some(Assemble(parse, seg, [v], fontSize));
  }

  /** Only the middle token survives the filter; the outer two are rejected. */
  lemma RejectsFilters(parse: Parser, x: string, y: string, z: string, v: real)
    requires !IsValid(parse, x) && y != [] && parse(y) == Some(v) && !IsValid(parse, z)
    ensures Points(parse, [x, y, z]) == [v]
    ensures InvalidTokens(parse, [x, y, z]) == [x, z]
  {
    ThreeTokens(parse, x, y, z);
    assert Numbers(parse, [y]) == [v];
    assert [x] + [] + [z] == [x, z];
  }

  lemma AssembleOneAmongRejects(parse: Parser, seg: Segments, x: string, y: string, z: string, v: real, fontSize: real)
    requires seg.max == None && seg.mean == None
    requires RawTokens(seg.points) == [x, y, z]
    requires Points(parse, [x, y, z]) == [v] && InvalidTokens(parse, [x, y, z]) == [x, z] && v >= 0.0
    ensures var p := Assemble(parse, seg, [v], fontSize);
            && p.opts.points == [v]
            && p.opts.scaleMax == v
            && p.opts.mean == None
            && p.warnings == [NonNumeric([x, z])]
  {
    assert Negatives([v]) == [] && DataMax([v]) == v;
    assert ResolveScale(v, Absent) == Scaled(v, []);
    assert ParseMean(parse, None) == MeanParse(None, []);
    assert TokenWarnings([x, z], []) == [NonNumeric([x, z])];
  }

  lemma NonNumericText()
    ensures SplitContent("a,2,b") == Segments("a,2,b", None, None)
    ensures RawTokens("a,2,b") == ["a", "2", "b"]
  {
    NonNumericSegments();
    NonNumericRaw();
  }

  lemma NonNumericSegments()
    ensures SplitContent("a,2,b") == Segments("a,2,b", None, None)
  {
    PlainSegment("a,2,b");
    SplitContentPointsOnly("a,2,b");
  }

  lemma NonNumericRaw()
    ensures RawTokens("a,2,b") == ["a", "2", "b"]
  {
    assert RawTokens("a" + "," + "2" + "," + "b") == ["a", "2", "b"] by {
      PlainToken("a");
      PlainToken("2");
      PlainToken("b");
      ThreeCleanTokens("a", "2", "b");
    }
    assert "a" + "," + "2" + "," + "b" == "a,2,b";
  }

  /** `"1,2,3"`: the scale is the data maximum, and when the font is large
      enough for the smallest bar to clear the legibility floor, each bar's
      height is its value's share of 3 of the 2em bar area. */
  lemma AutoScaleHeights(parse: Parser, fontSize: real, i: nat)
    requires parse("1") == Some(1.0) && parse("2") == Some(2.0) && parse("3") == Some(3.0)
    requires fontSize >= 1.5 && i < 3
    ensures Prepare(parse, "1,2,3", fontSize).Some?
    ensures var shapes := Draw(Prepare(parse, "1,2,3", fontSize).value.opts, Bars).svg.shapes;
            && i < |shapes| && shapes[i].Rect?
            && shapes[i].h == ((i + 1) as real) / 3.0 * (2.0 * fontSize)
  {
    AutoScale(parse, fontSize);
    BarShare(Prepare(parse, "1,2,3", fontSize).value.opts, fontSize, i);
  }

  lemma AutoScale(parse: Parser, fontSize: real)
    requires parse("1") == Some(1.0) && parse("2") == Some(2.0) && parse("3") == Some(3.0)
    ensures Prepare(parse, "1,2,3", fontSize).Some?
    ensures var p := Prepare(parse, "1,2,3", fontSize).value;
            && p.opts.points == [1.0, 2.0, 3.0]
            && p.opts.scaleMax == 3.0
            && p.opts.mean == None
            && p.opts.fontSize == fontSize
            && p.warnings == []
  {
    var seg := Segments("1,2,3", None, None);
    SplitContentPointsOnly("1,2,3");
    OneTwoThreeTokens();
    OneTwoThreeFilters(parse);
    PrepareParts(parse, "1,2,3", seg, [1.0, 2.0, 3.0], fontSize);
    OneTwoThreeMax();
    assert Negatives([1.0, 2.0, 3.0]) == [];
    assert TokenWarnings([], []) == [];
    assert ParseMean(parse, None) == MeanParse(None, []);
  }

  /** Bar `i` of the three-point chart, drawn without an indicator. */
  lemma BarShare(o: Options, fontSize: real, i: nat)
    requires o.points == [1.0, 2.0, 3.0] && o.scaleMax == 3.0 && o.mean == None
    requires o.fontSize == fontSize && fontSize >= 1.5 && i < 3
    ensures var shapes := Draw(o, Bars).svg.shapes;
            && i < |shapes| && shapes[i].Rect?
            && shapes[i].h == ((i + 1) as real) / 3.0 * (2.0 * fontSize)
  {
    var area := 2.0 * fontSize;
    assert CanvasHeight(Bars, fontSize, 0.0) - 0.0 == area;
    assert Draw(o, Bars) == DrawBars(o, area, 0.0);
    assert o.points[i] == (i + 1) as real;
    var h := ScaledHeight(o.points[i], 3.0, area);
    assert h == ((i + 1) as real) / 3.0 * area;
    MulMonotone(1.0 / 3.0, ((i + 1) as real) / 3.0, area);
    assert h >= 1.0;
  }

  /** `"1,2,3;10"`: an override above the data maximum is honoured, silently. */
  lemma OverrideHonoured(parse: Parser, fontSize: real)
    requires parse("1") == Some(1.0) && parse("2") == Some(2.0) && parse("3") == Some(3.0)
    requires parse("10") == Some(10.0)
    ensures Prepare(parse, "1,2,3;10", fontSize).Some?
    ensures var p := Prepare(parse, "1,2,3;10", fontSize).value;
            && p.opts.points == [1.0, 2.0, 3.0]
            && p.opts.scaleMax == 10.0
            && p.warnings == []
  {
    assert Join(["1,2,3", "10"], ';') == "1,2,3;10";
    OverrideAtLeastData(parse, "10", 10.0, fontSize);
  }

  /** `"1,2,3;max"` with a finite override of at least 3 scales to it. */
  lemma OverrideAtLeastData(parse: Parser, max: string, v: real, fontSize: real)
    requires parse("1") == Some(1.0) && parse("2") == Some(2.0) && parse("3") == Some(3.0)
    requires IsTrimmed(max) && max != [] && ';' !in max && parse(max) == Some(v) && v >= 3.0
    ensures Prepare(parse, Join(["1,2,3", max], ';'), fontSize).Some?
    ensures var p := Prepare(parse, Join(["1,2,3", max], ';'), fontSize).value;
            && p.opts.points == [1.0, 2.0, 3.0]
            && p.opts.scaleMax == v
            && p.warnings == []
  {
    OneTwoThreeWithMax(parse, max, fontSize);
    assert ReadOverride(parse, Some(max)) == Finite(v);
  }

  /** `"1,2,3;1"`: an override below the data maximum is refused with a
      warning, and the data maximum is used. */
  lemma OverrideBelowData(parse: Parser, fontSize: real)
    requires parse("1") == Some(1.0) && parse("2") == Some(2.0) && parse("3") == Some(3.0)
    ensures Prepare(parse, "1,2,3;1", fontSize).Some?
    ensures var p := Prepare(parse, "1,2,3;1", fontSize).value;
            && p.opts.points == [1.0, 2.0, 3.0]
            && p.opts.scaleMax == 3.0
            && p.warnings == [MaxBelowData(1.0, 3.0)]
  {
    assert Join(["1,2,3", "1"], ';') == "1,2,3;1";
    OneTwoThreeWithMax(parse, "1", fontSize);
    assert ResolveScale(3.0, ReadOverride(parse, Some("1"))) == Scaled(3.0, [MaxBelowData(1.0, 3.0)]) by {
      assert ReadOverride(parse, Some("1")) == Finite(1.0);
    }
  }

  /** `"5,10;0,20,15"`: with a single `;` the text after it is the max
      override, not a mean spec, so `Number` rejects it: one invalid-max
      warning, automatic scaling, and no indicator. */
  lemma MeanSpecInMaxSlot(parse: Parser, fontSize: real)
    requires parse("5") == Some(5.0) && parse("10") == Some(10.0) && parse("0,20,15") == None
    ensures Prepare(parse, "5,10;0,20,15", fontSize).Some?
    ensures var p := Prepare(parse, "5,10;0,20,15", fontSize).value;
            && p.opts.points == [5.0, 10.0]
            && p.opts.scaleMax == 10.0
            && p.opts.mean == None
            && p.warnings == [InvalidMax(None)]
  {
    assert Join(["5,10", "0,20,15"], ';') == "5,10;0,20,15";
    FiveTenWithMax(parse, "0,20,15", fontSize);
    assert ReadOverride(parse, Some("0,20,15")) == NotFinite;
  }

  /** `"5,10;;0,20,15"`: the explicit form `min, max, mean` in the third
      segment sets the indicator to 15 on the range 0 to 20, silently. */
  lemma ExplicitMean(parse: Parser, fontSize: real)
    requires parse("5") == Some(5.0) && parse("10") == Some(10.0)
    requires parse("0") == Some(0.0) && parse("20") == Some(20.0) && parse("15") == Some(15.0)
    ensures Prepare(parse, "5,10;;0,20,15", fontSize).Some?
    ensures var p := Prepare(parse, "5,10;;0,20,15", fontSize).value;
            && p.opts.points == [5.0, 10.0]
            && p.opts.scaleMax == 10.0
            && p.opts.mean == Some(Mean(15.0, 0.0, 20.0))
            && p.warnings == []
  {
    ExplicitMeanText();
    FiveTenWithMean(parse, "0,20,15", fontSize);
    ExplicitMeanSpec(parse);
  }

  lemma ExplicitMeanSpec(parse: Parser)
    requires parse("0") == Some(0.0) && parse("20") == Some(20.0) && parse("15") == Some(15.0)
    ensures ParseMean(parse, Some("0,20,15")) == MeanParse(Some(Mean(15.0, 0.0, 20.0)), [])
  {
    MeanTokensOfSpec();
  }

  /** ... and the indicator sits three quarters of the way from the first
      bar's centre to the last one's. */
  lemma ExplicitMeanPosition(parse: Parser, fontSize: real)
    requires parse("5") == Some(5.0) && parse("10") == Some(10.0)
    requires fontSize >= 0.0
    ensures Prepare(parse, "5,10;;0,20,15", fontSize).Some?
    ensures var o := Prepare(parse, "5,10;;0,20,15", fontSize).value.opts;
            var firstCentre := BarX(0, o.barWidth, o.gap, 0.0) + o.barWidth / 2.0;
            var lastCentre := BarX(1, o.barWidth, o.gap, 0.0) + o.barWidth / 2.0;
            MeanX(15.0, 0.0, 20.0, o.width, o.barWidth) == firstCentre + 0.75 * (lastCentre - firstCentre)
  {
    ExplicitMeanText();
    FiveTenWithMean(parse, "0,20,15", fontSize);
    ThreeQuarters(fontSize);
  }

  /** The indicator `prepare` sets for `"5,10;;0,20,15"` is placed three
      quarters of the way from the first bar's centre to the last one's. */
  lemma ExplicitMeanPlaced(parse: Parser, fontSize: real)
    requires parse("5") == Some(5.0) && parse("10") == Some(10.0)
    requires parse("0") == Some(0.0) && parse("20") == Some(20.0) && parse("15") == Some(15.0)
    requires fontSize >= 0.0
    ensures Prepare(parse, "5,10;;0,20,15", fontSize).Some?
    ensures var o := Prepare(parse, "5,10;;0,20,15", fontSize).value.opts;
            var firstCentre := BarX(0, o.barWidth, o.gap, 0.0) + o.barWidth / 2.0;
            var lastCentre := BarX(1, o.barWidth, o.gap, 0.0) + o.barWidth / 2.0;
            && o.mean.Some?
            && MeanX(o.mean.value.value, o.mean.value.lo, o.mean.value.hi, o.width, o.barWidth)
               == firstCentre + 0.75 * (lastCentre - firstCentre)
  {
    ExplicitMean(parse, fontSize);
    ExplicitMeanPosition(parse, fontSize);
  }

  lemma ExplicitMeanText()
    ensures FormatContent("5,10", "", "0,20,15") == "5,10;;0,20,15"
  {
    assert ["5,10", "", "0,20,15"][1..] == ["", "0,20,15"];
    assert ["", "0,20,15"][1..] == ["0,20,15"];
  }

  /** `"5,10;max"`: two points, no mean, and the scale and warnings the
      override decides. */
  lemma FiveTenWithMax(parse: Parser, max: string, fontSize: real)
    requires parse("5") == Some(5.0) && parse("10") == Some(10.0)
    requires IsTrimmed(max) && max != [] && ';' !in max
    ensures Prepare(parse, Join(["5,10", max], ';'), fontSize).Some?
    ensures var p := Prepare(parse, Join(["5,10", max], ';'), fontSize).value;
            var scaled := ResolveScale(10.0, ReadOverride(parse, Some(max)));
            && p.opts.points == [5.0, 10.0]
            && p.opts.scaleMax == scaled.scaleMax
            && p.opts.mean == None
            && p.warnings == scaled.warnings
  {
    var seg := Segments("5,10", Some(max), None);
    FiveTenMaxSegments(max);
    assert && Points(parse, RawTokens(seg.points)) == [5.0, 10.0]
           && InvalidTokens(parse, RawTokens(seg.points)) == []
           && DataMax([5.0, 10.0]) == 10.0 && Negatives([5.0, 10.0]) == [] by {
      FiveTen(parse);
    }
    PrepareParts(parse, Join(["5,10", max], ';'), seg, [5.0, 10.0], fontSize);
    assert TokenWarnings([], []) == [];
    assert ParseMean(parse, None) == MeanParse(None, []);
  }

  lemma FiveTenMaxSegments(max: string)
    requires IsTrimmed(max) && max != [] && ';' !in max
    ensures SplitContent(Join(["5,10", max], ';')) == Segments("5,10", Some(max), None)
  {
    PlainSegment("5,10");
    SplitContentPointsMax("5,10", max);
  }

  /** `"5,10;;mean"`: two points, automatic scaling, and the indicator and
      warnings the mean spec decides. */
  lemma FiveTenWithMean(parse: Parser, mean: string, fontSize: real)
    requires parse("5") == Some(5.0) && parse("10") == Some(10.0)
    requires IsTrimmed(mean) && ';' !in mean
    ensures Prepare(parse, FormatContent("5,10", "", mean), fontSize).Some?
    ensures var p := Prepare(parse, FormatContent("5,10", "", mean), fontSize).value;
            var meanParse := ParseMean(parse, Some(mean));
            && p.opts.points == [5.0, 10.0]
            && p.opts.scaleMax == 10.0
            && p.opts.mean == meanParse.mean
            && p.opts.barWidth == fontSize && p.opts.gap == GapEm * fontSize
            && p.opts.width == ChartWidth(2, fontSize, GapEm * fontSize)
            && p.warnings == meanParse.warnings
  {
    var seg := Segments("5,10", Some(""), Some(mean));
    assert SplitContent(FormatContent("5,10", "", mean)) == seg by {
      PlainSegment("5,10");
      SplitContentFormat("5,10", "", mean);
    }
    assert && Points(parse, RawTokens(seg.points)) == [5.0, 10.0]
           && InvalidTokens(parse, RawTokens(seg.points)) == []
           && DataMax([5.0, 10.0]) == 10.0 && Negatives([5.0, 10.0]) == [] by {
      FiveTen(parse);
    }
    PrepareParts(parse, FormatContent("5,10", "", mean), seg, [5.0, 10.0], fontSize);
    assert ReadOverride(parse, Some("")) == Absent;
    assert TokenWarnings([], []) == [];
  }

  /** Two bars one em wide with a 0.2em gap: a mean at 15 on 0 to 20 sits
      three quarters of the way between their centres. */
  lemma ThreeQuarters(fontSize: real)
    requires fontSize >= 0.0
    ensures var bw, gap := fontSize, GapEm * fontSize;
            var first := BarX(0, bw, gap, 0.0) + bw / 2.0;
            var last := BarX(1, bw, gap, 0.0) + bw / 2.0;
            MeanX(15.0, 0.0, 20.0, ChartWidth(2, bw, gap), bw) == first + 0.75 * (last - first)
  {
    var bw, gap := fontSize, GapEm * fontSize;
    assert ChartWidth(2, bw, gap) == 2.2 * fontSize;
  }

  lemma FiveTen(parse: Parser)
    requires parse("5") == Some(5.0) && parse("10") == Some(10.0)
    ensures RawTokens("5,10") == ["5", "10"]
    ensures Points(parse, ["5", "10"]) == [5.0, 10.0]
    ensures InvalidTokens(parse, ["5", "10"]) == []
    ensures DataMax([5.0, 10.0]) == 10.0
    ensures Negatives([5.0, 10.0]) == []
  {
    assert RawTokens("5,10") == ["5", "10"] by {
      PlainToken("5");
      PlainToken("10");
      TwoCleanTokens("5", "10");
      assert "5" + "," + "10" == "5,10";
    }
    TwoTokens(parse, "5", "10");
    assert [5.0, 10.0][1..] == [10.0];
  }

  lemma TwoCleanTokens(x: string, y: string)
    requires CleanToken(x) && CleanToken(y)
    ensures RawTokens(x + "," + y) == [x, y]
  {
    var toks := [x, y];
    assert toks[1..] == [y];
    assert Join(toks, ',') == x + "," + y;
    RawTokensJoin(toks);
  }

  lemma TwoTokens(parse: Parser, x: string, y: string)
    requires IsValid(parse, x) && IsValid(parse, y)
    ensures Points(parse, [x, y]) == [parse(x).value, parse(y).value]
    ensures InvalidTokens(parse, [x, y]) == []
  {
    assert [x, y] == [x] + [y];
    ValidTokensAppend(parse, [x], [y]);
    InvalidTokensAppend(parse, [x], [y]);
    PartitionSingle(parse, x);
    PartitionSingle(parse, y);
    assert ValidTokens(parse, [x, y]) == [x, y];
    assert [x, y][1..] == [y];
  }

  lemma MeanTokensOfSpec()
    ensures MeanTokens("0,20,15") == ["0", "20", "15"]
  {
    assert RawTokens("0" + "," + "20" + "," + "15") == ["0", "20", "15"] by {
      PlainToken("0");
      PlainToken("20");
      PlainToken("15");
      ThreeCleanTokens("0", "20", "15");
    }
    assert "0" + "," + "20" + "," + "15" == "0,20,15";
    NonEmptyThree("0", "20", "15");
  }

  lemma ThreeCleanTokens(x: string, y: string, z: string)
    requires CleanToken(x) && CleanToken(y) && CleanToken(z)
    ensures RawTokens(x + "," + y + "," + z) == [x, y, z]
  {
    var toks := [x, y, z];
    assert toks[1..] == [y, z] && toks[1..][1..] == [z];
    assert Join([z], ',') == z;
    assert Join([y, z], ',') == y + "," + z;
    assert Join(toks, ',') == x + "," + y + "," + z;
    RawTokensJoin(toks);
  }

  lemma NonEmptyThree(x: string, y: string, z: string)
    requires x != [] && y != [] && z != []
    ensures NonEmpty([x, y, z]) == [x, y, z]
  {
    var toks := [x, y, z];
    assert toks[1..] == [y, z] && [y, z][1..] == [z] && [z][1..] == [];
    assert NonEmpty([z]) == [z];
    assert NonEmpty([y, z]) == [y, z];
  }

  /** `prepare` on a spec whose segments and points are known, spelled out
      part by part. */
  lemma PrepareParts(parse: Parser, content: string, seg: Segments, points: seq<real>, fontSize: real)
    requires SplitContent(content) == seg
    requires points == Points(parse, RawTokens(seg.points)) && |points| >= 1
    ensures Prepare(parse, content, fontSize).Some?
    ensures var p := Prepare(parse, content, fontSize).value;
            var scaled := ResolveScale(DataMax(points), ReadOverride(parse, seg.max));
            var meanParse := ParseMean(parse, seg.mean);
            && p.opts.points == points
            && p.opts.fontSize == fontSize
            && p.opts.scaleMax == scaled.scaleMax
            && p.opts.mean == meanParse.mean
            && p.opts.barWidth == BarWidthEm * fontSize
            && p.opts.gap == GapEm * fontSize
            && p.opts.width == ChartWidth(|points|, BarWidthEm * fontSize, GapEm * fontSize)
            && p.warnings == TokenWarnings(InvalidTokens(parse, RawTokens(seg.points)), Negatives(points))
                             + scaled.warnings + meanParse.warnings
  {
    assert Prepare(parse, content, fontSize) == Some(Assemble(parse, seg, points, fontSize));
  }

  /** `"1,2,3;max"`: three points, no mean, and the scale and warnings the
      override decides. */
  lemma OneTwoThreeWithMax(parse: Parser, max: string, fontSize: real)
    requires parse("1") == Some(1.0) && parse("2") == Some(2.0) && parse("3") == Some(3.0)
    requires IsTrimmed(max) && max != [] && ';' !in max
    ensures Prepare(parse, Join(["1,2,3", max], ';'), fontSize).Some?
    ensures var p := Prepare(parse, Join(["1,2,3", max], ';'), fontSize).value;
            var scaled := ResolveScale(3.0, ReadOverride(parse, Some(max)));
            && p.opts.points == [1.0, 2.0, 3.0]
            && p.opts.scaleMax == scaled.scaleMax
            && p.opts.mean == None
            && p.warnings == scaled.warnings
  {
    var seg := Segments("1,2,3", Some(max), None);
    var points := [1.0, 2.0, 3.0];
    assert SplitContent(Join(["1,2,3", max], ';')) == seg
           && Points(parse, RawTokens(seg.points)) == points
           && InvalidTokens(parse, RawTokens(seg.points)) == [] by {
      OneTwoThreeText(max);
      OneTwoThreeFilters(parse);
    }
    assert TokenWarnings([], Negatives(points)) == [] by {
      assert Negatives(points) == [];
    }
    assert DataMax(points) == 3.0 by {
      OneTwoThreeMax();
    }
    assert ParseMean(parse, None) == MeanParse(None, []);
    PrepareParts(parse, Join(["1,2,3", max], ';'), seg, points, fontSize);
  }

  lemma OneTwoThreeText(max: string)
    requires IsTrimmed(max) && max != [] && ';' !in max
    ensures SplitContent(Join(["1,2,3", max], ';')) == Segments("1,2,3", Some(max), None)
    ensures RawTokens("1,2,3") == ["1", "2", "3"]
  {
    PlainSegment("1,2,3");
    SplitContentPointsMax("1,2,3", max);
    OneTwoThreeTokens();
  }

  lemma OneTwoThreeTokens()
    ensures RawTokens("1,2,3") == ["1", "2", "3"]
  {
    assert RawTokens("1" + "," + "2" + "," + "3") == ["1", "2", "3"] by {
      PlainToken("1");
      PlainToken("2");
      PlainToken("3");
      ThreeCleanTokens("1", "2", "3");
    }
    assert "1" + "," + "2" + "," + "3" == "1,2,3";
  }

  lemma OneTwoThreeFilters(parse: Parser)
    requires parse("1") == Some(1.0) && parse("2") == Some(2.0) && parse("3") == Some(3.0)
    ensures Points(parse, ["1", "2", "3"]) == [1.0, 2.0, 3.0]
    ensures InvalidTokens(parse, ["1", "2", "3"]) == []
  {
    ThreeTokens(parse, "1", "2", "3");
    assert ValidTokens(parse, ["1", "2", "3"]) == ["1", "2", "3"];
  }

  lemma OneTwoThreeMax()
    ensures DataMax([1.0, 2.0, 3.0]) == 3.0
  {
    assert [1.0, 2.0, 3.0][1..] == [2.0, 3.0];
    assert [2.0, 3.0][1..] == [3.0];
    assert [3.0][1..] == [];
  }

  /** The two filters on a three-token list. */
  lemma ThreeTokens(parse: Parser, x: string, y: string, z: string)
    ensures ValidTokens(parse, [x, y, z]) ==
              (if IsValid(parse, x) then [x] else []) + (if IsValid(parse, y) then [y] else [])
              + (if IsValid(parse, z) then [z] else [])
    ensures InvalidTokens(parse, [x, y, z]) ==
              (if IsValid(parse, x) then [] else [x]) + (if IsValid(parse, y) then [] else [y])
              + (if IsValid(parse, z) then [] else [z])
  {
    ThreeValid(parse, x, y, z);
    ThreeInvalid(parse, x, y, z);
  }

  lemma ThreeValid(parse: Parser, x: string, y: string, z: string)
    ensures ValidTokens(parse, [x, y, z]) ==
              (if IsValid(parse, x) then [x] else []) + (if IsValid(parse, y) then [y] else [])
              + (if IsValid(parse, z) then [z] else [])
  {
    assert [x, y, z] == [x] + ([y] + [z]);
    ValidTokensAppend(parse, [x], [y] + [z]);
    ValidTokensAppend(parse, [y], [z]);
    PartitionSingle(parse, x);
    PartitionSingle(parse, y);
    PartitionSingle(parse, z);
  }

  lemma ThreeInvalid(parse: Parser, x: string, y: string, z: string)
    ensures InvalidTokens(parse, [x, y, z]) ==
              (if IsValid(parse, x) then [] else [x]) + (if IsValid(parse, y) then [] else [y])
              + (if IsValid(parse, z) then [] else [z])
  {
    assert [x, y, z] == [x] + ([y] + [z]);
    InvalidTokensAppend(parse, [x], [y] + [z]);
    InvalidTokensAppend(parse, [y], [z]);
    PartitionSingle(parse, x);
    PartitionSingle(parse, y);
    PartitionSingle(parse, z);
  }

  /** The shape of every token `RawTokens` produces. */
  predicate CleanToken(t: string) {
    IsTrimmed(t) && ',' !in t && '\n' !in t
  }

  /** A token of letters, digits, `.` and `-` is clean. */
  lemma PlainToken(t: string)
    requires forall j :: 0 <= j < |t| ==> IsPlain(t[j])
    ensures CleanToken(t)
  {
  }

  /** A segment of plain characters and commas is trimmed and `;`-free. */
  lemma PlainSegment(t: string)
    requires forall j :: 0 <= j < |t| ==> IsPlain(t[j]) || t[j] == ','
    ensures IsTrimmed(t) && ';' !in t
  {
  }

  predicate IsPlain(c: char) {
    ('a' <= c <= 'z') || ('0' <= c <= '9') || c == '.' || c == '-'
  }

  /** `""`: no token is a number, so there is no chart and no warning. */
  lemma EmptySpec(parse: Parser, fontSize: real)
    ensures Prepare(parse, "", fontSize).None?
  {
    SplitContentPointsOnly("");
    assert SpecTokens("") == [""];
  }
}

=== FILE: sparkcharts.dfy ===
/** The whole pipeline for one element, `prepare` then `draw`, and the
    properties that hold of it end to end. */
module Sparkcharts {
  import opened Wrappers
  import opened Strings
  import opened Diagnostics
  import opened Tokens
  import opened Scale
  import opened MeanSpec
  import opened Layout
  import opened Chart
  import opened Render

  /** One element's chart: None when `prepare` returns null, otherwise the
      drawing with every warning `prepare` and `draw` issued, in order.
      `computedFontSize` is `parseFloat` of the computed style (None for NaN);
      `modeAttr` is the `data-sparkchart-mode` attribute. */
  function Sparkchart(parse: Parser, content: string, computedFontSize: Option<real>,
                      modeAttr: Option<string>): (r: Option<Drawing>)
    ensures r.None? <==> forall i :: 0 <= i < |SpecTokens(content)| ==> !IsValid(parse, SpecTokens(content)[i])
  {
    match Prepare(parse, content, ResolveFontSize(computedFontSize))
    case None => None
    case Some(p) =>
      var d := Draw(p.opts, ModeOf(modeAttr));
      Some(Drawing(d.svg, p.warnings + d.warnings))
  }

  /** An element's warnings are exactly those of `prepare`: `draw` adds none
      when the computed font size is not negative. */
  lemma SparkchartWarnings(parse: Parser, content: string, computedFontSize: Option<real>,
                           modeAttr: Option<string>)
    requires computedFontSize.None? || computedFontSize.value >= 0.0
    ensures var r := Sparkchart(parse, content, computedFontSize, modeAttr);
            var p := Prepare(parse, content, ResolveFontSize(computedFontSize));
            r.Some? ==> p.Some? && r.value.warnings == p.value.warnings
  {
    var fs := ResolveFontSize(computedFontSize);
    if Prepare(parse, content, fs).Some? {
      PrepareValidOptions(parse, content, fs);
      DrawAddsNoWarnings(Prepare(parse, content, fs).value, ModeOf(modeAttr));
    }
  }

  lemma DrawAddsNoWarnings(p: Prepared, mode: Mode)
    requires ValidOptions(p.opts)
    ensures p.warnings + Draw(p.opts, mode).warnings == p.warnings
  {
    DrawNeverWarns(p.opts, mode);
    assert p.warnings + [] == p.warnings;
  }

  /** Token partition: the points are the valid tokens' values in input
      order, the rejected tokens are the rest, the two counts add up to the
      token count, and the non-numeric warning (listing exactly the rejected
      tokens) is issued iff some token was rejected. */
  lemma TokenPartition(parse: Parser, content: string, fontSize: real)
    requires Prepare(parse, content, fontSize).Some?
    ensures var p := Prepare(parse, content, fontSize).value;
            var toks := SpecTokens(content);
            var invalid := InvalidTokens(parse, toks);
            && p.opts.points == Numbers(parse, ValidTokens(parse, toks))
            && |p.opts.points| + |invalid| == |toks|
            && (NonNumeric(invalid) in p.warnings <==> invalid != [])
            && (forall w :: w in p.warnings && w.NonNumeric? ==> w == NonNumeric(invalid))
  {
    var toks := SpecTokens(content);
    var p := Prepare(parse, content, fontSize).value;
    PrepareTokenWarnings(parse, content, fontSize);
    PartitionCount(parse, toks);
    NonNumericFromPrefix(p.warnings, InvalidTokens(parse, toks), Negatives(p.opts.points));
  }

  /** A warning list that starts with the token warnings and continues with
      warnings about something else names the rejected tokens exactly once. */
  lemma NonNumericFromPrefix(ws: seq<Warning>, invalid: seq<string>, negatives: seq<real>)
    requires var tw := TokenWarnings(invalid, negatives);
             && |tw| <= |ws| && ws[..|tw|] == tw
             && forall k :: |tw| <= k < |ws| ==> !AboutPoints(ws[k])
    ensures NonNumeric(invalid) in ws <==> invalid != []
    ensures forall w :: w in ws && w.NonNumeric? ==> w == NonNumeric(invalid)
  {
    var tw := TokenWarnings(invalid, negatives);
    forall w | w in ws && w.NonNumeric?
      ensures w == NonNumeric(invalid)
    {
      var k :| 0 <= k < |ws| && ws[k] == w;
      if k < |tw| {
        assert w == ws[..|tw|][k];
        assert w in tw;
      }
    }
    if invalid != [] {
      assert NonNumeric(invalid) in tw;
      var k :| 0 <= k < |tw| && tw[k] == NonNumeric(invalid);
      assert ws[k] == ws[..|tw|][k];
    }
  }

  /** Scale bound: `scaleMax >= dataMax >= 0` whatever the override, and the
      override is used exactly when it is a finite number at least `dataMax`. */
  lemma ScaleBound(parse: Parser, content: string, fontSize: real)
    requires Prepare(parse, content, fontSize).Some?
    ensures var o := Prepare(parse, content, fontSize).value.opts;
            var dataMax := DataMax(o.points);
            var ov := ReadOverride(parse, SplitContent(content).max);
            && 0.0 <= dataMax <= o.scaleMax
            && ((ov.Finite? && o.scaleMax == ov.value) <==> (ov.Finite? && ov.value >= dataMax))
            && (!(ov.Finite? && ov.value >= dataMax) ==> o.scaleMax == dataMax)
  {
  }

  /** Mean spec: an indicator is set iff the third segment is non-empty and
      is an accepted one- or three-token form, and then `lo < hi` and
      `value >= 0`. */
  lemma MeanIndicator(parse: Parser, content: string, fontSize: real)
    requires Prepare(parse, content, fontSize).Some?
    ensures var o := Prepare(parse, content, fontSize).value.opts;
            var meanData := SplitContent(content).mean;
            && (o.mean.Some? <==> meanData.Some? && meanData.value != []
                                  && (AcceptsImplicit(parse, MeanTokens(meanData.value))
                                      || AcceptsExplicit(parse, MeanTokens(meanData.value))))
            && (o.mean.Some? ==> o.mean.value.lo < o.mean.value.hi && o.mean.value.value >= 0.0)
            && (o.mean.Some? ==>
                  && meanData.Some?
                  && var toks := MeanTokens(meanData.value);
                  && (|toks| == 1 ==> o.mean.value == Mean(parse(toks[0]).value, 0.0, 100.0))
                  && (|toks| == 3 ==> && parse(toks[0]) == Some(o.mean.value.lo)
                                      && parse(toks[1]) == Some(o.mean.value.hi)
                                      && parse(toks[2]) == Some(o.mean.value.value)))
  {
  }

  /** Canvas height per mode: `2em + marker` for bars, `2 * 2em + 2 * marker`
      for tone (so each tone half has a 2em bar area); the marker strip is
      empty exactly when there is no mean. */
  lemma CanvasHeights(o: Options, mode: Mode)
    requires ValidOptions(o)
    ensures var mh := MarkerHeight(o.mean.Some?, o.fontSize);
            && (mh == 0.0 <==> o.mean.None?)
            && (mode == Bars ==> Draw(o, mode).svg.height == 2.0 * o.fontSize + mh)
            && (mode == Tone ==> Draw(o, mode).svg.height == 2.0 * (2.0 * o.fontSize) + 2.0 * mh)
            && (mode == Tone ==> (Draw(o, mode).svg.height - mh * 2.0) / 2.0 == 2.0 * o.fontSize)
  {
  }

  /** Bar mode, point `i`: the rect sits at `i * (barWidth + gap)`, is at
      least one unit high and stands on the bottom edge; the last bar ends
      at the canvas width; when the bar area is at least one unit (font size
      at least 0.5) the bar stays below the indicator strip. */
  lemma BarGeometry(o: Options, i: nat)
    requires ValidOptions(o) && i < |o.points|
    ensures var d := Draw(o, Bars);
            var r := d.svg.shapes[i];
            var mh := MarkerHeight(o.mean.Some?, o.fontSize);
            && r.Rect? && r.title == Some(o.points[i])
            && r.x == (i as real) * (o.barWidth + o.gap) && r.w == o.barWidth
            && r.h >= 1.0 && r.y + r.h == d.svg.height
            && 0.0 <= r.x && r.x + r.w <= d.svg.width
            && (i == |o.points| - 1 ==> r.x + r.w == d.svg.width)
            && (o.fontSize >= 0.5 ==> r.y >= mh)
  {
    var mh := MarkerHeight(o.mean.Some?, o.fontSize);
    var height := CanvasHeight(Bars, o.fontSize, mh);
    var area := height - mh;
    assert area == 2.0 * o.fontSize;
    var d := Draw(o, Bars);
    assert d == DrawBars(o, height, mh);
    assert d.svg.shapes[i] == BarRect(o, height, area, i);
    BarRectFits(o, height, area, i);
  }

  /** The arithmetic of one bar: its x-offset, its height and where it
      stands, and that it fits in the bar run. */
  lemma BarRectFits(o: Options, height: real, area: real, i: nat)
    requires ValidOptions(o) && i < |o.points| && area >= 0.0
    ensures var r := BarRect(o, height, area, i);
            && r.Rect? && r.title == Some(o.points[i])
            && r.x == (i as real) * (o.barWidth + o.gap) && r.w == o.barWidth
            && r.h >= 1.0 && r.y + r.h == height
            && 0.0 <= r.x && r.x + r.w <= o.width
            && (i == |o.points| - 1 ==> r.x + r.w == o.width)
            && (area >= 1.0 ==> r.y >= height - area)
  {
    var n := |o.points|;
    DataMaxBounds(o.points, i);
    BarXMonotone(0, i, o.barWidth, o.gap, 0.0);
    BarXMonotone(i, n - 1, o.barWidth, o.gap, 0.0);
  }

  lemma DataMaxBounds(points: seq<real>, i: nat)
    requires i < |points|
    ensures points[i] <= DataMax(points)
  {
  }

  /** Tone mode, point `i`: two rects of one height, the upper ending and the
      lower starting at `centerY`, both shifted right by one gap; when each
      half's bar area is at least one unit they stay inside their halves,
      clear of the indicator strips. */
  lemma ToneGeometry(o: Options, i: nat)
    requires ValidOptions(o) && i < |o.points|
    ensures var d := Draw(o, Tone);
            var centerY := d.svg.height / 2.0;
            var up := d.svg.shapes[1 + 2 * i];
            var down := d.svg.shapes[2 + 2 * i];
            var mh := MarkerHeight(o.mean.Some?, o.fontSize);
            && d.svg.width == o.width + 2.0 * o.gap
            && up.Rect? && down.Rect?
            && up.h == down.h && up.h >= 1.0
            && up.y + up.h == centerY && down.y == centerY
            && up.x == down.x == o.gap + (i as real) * (o.barWidth + o.gap)
            && o.gap <= up.x && up.x + up.w <= d.svg.width - o.gap
            && up.title == Some(o.points[i]) && down.title == None
            && (o.fontSize >= 0.5 ==> up.y >= mh && down.y + down.h <= d.svg.height - mh)
  {
    var mh := MarkerHeight(o.mean.Some?, o.fontSize);
    var height := CanvasHeight(Tone, o.fontSize, mh);
    var area := (height - mh * 2.0) / 2.0;
    assert area == 2.0 * o.fontSize;
    var d := Draw(o, Tone);
    assert d == DrawTone(o, height, mh);
    assert d.svg.shapes[1 + 2 * i] == ToneAbove(o, height / 2.0, area, i);
    assert d.svg.shapes[2 + 2 * i] == ToneBelow(o, height / 2.0, area, i);
    ToneRectsFit(o, height / 2.0, area, i);
  }

  /** The arithmetic of one tone pair: both halves share the x-offset and
      the height, meet at `centerY`, and fit in the padded run. */
  lemma ToneRectsFit(o: Options, centerY: real, area: real, i: nat)
    requires ValidOptions(o) && i < |o.points| && area >= 0.0
    ensures var up := ToneAbove(o, centerY, area, i);
            var down := ToneBelow(o, centerY, area, i);
            && up.Rect? && down.Rect?
            && up.h == down.h && up.h >= 1.0
            && up.y + up.h == centerY && down.y == centerY
            && up.x == down.x == o.gap + (i as real) * (o.barWidth + o.gap)
            && up.w == o.barWidth
            && o.gap <= up.x && up.x + up.w <= o.width + o.gap
            && up.title == Some(o.points[i]) && down.title == None
            && (area >= 1.0 ==> up.y >= centerY - area && down.y + down.h <= centerY + area)
  {
    var bh := BarHeight(o.points[i], o.scaleMax, area);
    assert area >= 1.0 ==> bh <= area by {
      DataMaxBounds(o.points, i);
    }
    var x := BarX(i, o.barWidth, o.gap, o.gap);
    assert o.gap <= x && x + o.barWidth <= o.width + o.gap by {
      BarInRun(o, i);
    }
  }

  /** Bar `i`, shifted right by one gap, lies within the run shifted likewise. */
  lemma BarInRun(o: Options, i: nat)
    requires ValidOptions(o) && i < |o.points|
    ensures o.gap <= BarX(i, o.barWidth, o.gap, o.gap)
    ensures BarX(i, o.barWidth, o.gap, o.gap) + o.barWidth <= o.width + o.gap
  {
    BarXMonotone(0, i, o.barWidth, o.gap, o.gap);
    BarXMonotone(i, |o.points| - 1, o.barWidth, o.gap, 0.0);
  }

  /** `drawMeanLine`'s empty-range branch is never taken for options
      `prepare` produced, so `draw` issues no warning. */
  lemma DrawNeverWarns(o: Options, mode: Mode)
    requires ValidOptions(o)
    ensures Draw(o, mode).warnings == []
  {
  }

  /** Bar mode: the indicator's x lies between the centres of the first and
      the last bar whenever the mean lies in its range, and it never moves
      left as the mean grows. */
  lemma BarMeanPosition(o: Options, v: real, w: real)
    requires ValidOptions(o) && o.mean.Some?
    ensures var m := o.mean.value;
            var firstCentre := BarX(0, o.barWidth, o.gap, 0.0) + o.barWidth / 2.0;
            var lastCentre := BarX(|o.points| - 1, o.barWidth, o.gap, 0.0) + o.barWidth / 2.0;
            && (m.lo <= m.value <= m.hi ==>
                  firstCentre <= MeanX(m.value, m.lo, m.hi, Draw(o, Bars).svg.width, o.barWidth) <= lastCentre)
            && (v <= w ==> MeanX(v, m.lo, m.hi, o.width, o.barWidth) <= MeanX(w, m.lo, m.hi, o.width, o.barWidth))
  {
    var m := o.mean.value;
    ChartWidthAtLeastOneBar(|o.points|, o.barWidth, o.gap);
    if m.lo <= m.value <= m.hi {
      MeanXWithin(m.value, m.lo, m.hi, o.width, o.barWidth);
    }
    if v <= w {
      MeanXMonotone(v, w, m.lo, m.hi, o.width, o.barWidth);
    }
  }

  /** Bar mode: the indicator shapes follow the bars and are all centred on
      the mean's x-position. */
  lemma BarMeanShapes(o: Options)
    requires ValidOptions(o) && o.mean.Some?
    ensures var d := Draw(o, Bars);
            var m := o.mean.value;
            var x := MeanX(m.value, m.lo, m.hi, o.width, o.barWidth);
            var n := |o.points|;
            var mh := MarkerHeight(true, o.fontSize);
            && |d.svg.shapes| == n + 2
            && d.svg.shapes[n] == Marker(x - o.barWidth / 2.0, 0.0, o.barWidth, mh, true, Some(m.value))
            && d.svg.shapes[n].x + d.svg.shapes[n].w / 2.0 == x
            && d.svg.shapes[n + 1] == Line(x, mh, x, d.svg.height, true)
  {
  }

  /** Tone mode: after the baseline and the rect pairs come a downward marker
      in the top strip, an upward marker in the bottom strip and a dashed
      line between the strips, all on the mean's x-position interpolated
      over the padded canvas. */
  lemma ToneMeanShapes(o: Options)
    requires ValidOptions(o) && o.mean.Some?
    ensures var d := Draw(o, Tone);
            var m := o.mean.value;
            var x := MeanX(m.value, m.lo, m.hi, o.width + 2.0 * o.gap, o.barWidth);
            var n := |o.points|;
            var mh := MarkerHeight(true, o.fontSize);
            var h := d.svg.height;
            && |d.svg.shapes| == 1 + 2 * n + 3
            && d.svg.shapes[1 + 2 * n] == Marker(x - o.barWidth / 2.0, 0.0, o.barWidth, mh, true, Some(m.value))
            && d.svg.shapes[2 + 2 * n] == Marker(x - o.barWidth / 2.0, h - mh, o.barWidth, mh, false, None)
            && d.svg.shapes[3 + 2 * n] == Line(x, mh, x, h - mh, true)
  {
    var mh := MarkerHeight(true, o.fontSize);
    var h := CanvasHeight(Tone, o.fontSize, mh);
    var n := |o.points|;
    var area := (h - mh * 2.0) / 2.0;
    var rects := TonePairs(o, h / 2.0, area, n);
    var overlay := DrawMeanLine(o.mean, h, mh, o.width + 2.0 * o.gap, o.barWidth, true);
    var shapes := [Line(0.0, h / 2.0, o.width + 2.0 * o.gap, h / 2.0, false)] + rects + overlay.shapes;
    assert Draw(o, Tone).svg.shapes == shapes;
    assert shapes[1 + 2 * n] == overlay.shapes[0];
    assert shapes[2 + 2 * n] == overlay.shapes[1];
    assert shapes[3 + 2 * n] == overlay.shapes[2];
  }

  /** Tone mode: the indicator is interpolated over the padded canvas, from
      `barWidth / 2` to `paddedWidth - barWidth / 2`. Those ends lie one gap
      outside the first and last bar centres, which sit one gap further in. */
  lemma ToneMeanPosition(o: Options)
    requires ValidOptions(o) && o.mean.Some?
    ensures var m := o.mean.value;
            var d := Draw(o, Tone);
            var pw := d.svg.width;
            var firstCentre := BarX(0, o.barWidth, o.gap, o.gap) + o.barWidth / 2.0;
            var lastCentre := BarX(|o.points| - 1, o.barWidth, o.gap, o.gap) + o.barWidth / 2.0;
            && MeanX(m.lo, m.lo, m.hi, pw, o.barWidth) == firstCentre - o.gap
            && MeanX(m.hi, m.lo, m.hi, pw, o.barWidth) == lastCentre + o.gap
            && (m.lo <= m.value <= m.hi ==>
                  o.barWidth / 2.0 <= MeanX(m.value, m.lo, m.hi, pw, o.barWidth) <= pw - o.barWidth / 2.0)
  {
    var m := o.mean.value;
    var pw := o.width + 2.0 * o.gap;
    assert Draw(o, Tone).svg.width == pw by {
      var mh := MarkerHeight(true, o.fontSize);
      assert Draw(o, Tone) == DrawTone(o, CanvasHeight(Tone, o.fontSize, mh), mh);
    }
    ChartWidthAtLeastOneBar(|o.points|, o.barWidth, o.gap);
    MeanXEndpoints(m.lo, m.hi, pw, o.barWidth);
    if m.lo <= m.value <= m.hi {
      MeanXWithin(m.value, m.lo, m.hi, pw, o.barWidth);
    }
  }
}

=== FILE: strings.dfy ===
/** The string operations the chart spec parser relies on: ECMAScript
    `String.prototype.trim`, `split` on a one-character separator and the
    `replace(/\n+/g, ' ')` newline collapse. */
module Strings {

  /** ECMAScript WhiteSpace and LineTerminator code points: the characters `trim` strips. */
  predicate IsWhitespace(c: char) {
    || c == '\t' || c == '\n' || c == '\U{000B}' || c == '\U{000C}' || c == '\r'
    || c == ' ' || c == '\U{00A0}' || c == '\U{1680}'
    || ('\U{2000}' <= c <= '\U{200A}')
    || c == '\U{2028}' || c == '\U{2029}' || c == '\U{202F}' || c == '\U{205F}'
    || c == '\U{3000}' || c == '\U{FEFF}'
  }

  predicate AllWhitespace(s: string) {
    forall i :: 0 <= i < |s| ==> IsWhitespace(s[i])
  }

  /** Neither end of `s` is whitespace: the shape of every result of `Trim`. */
  predicate IsTrimmed(s: string) {
    s == [] || (!IsWhitespace(s[0]) && !IsWhitespace(s[|s| - 1]))
  }

  /** Drops the leading whitespace of `s`. */
  function TrimStart(s: string): (r: string)
    ensures |r| <= |s| && r == s[|s| - |r|..]
    ensures r == [] || !IsWhitespace(r[0])
  {
    if |s| > 0 && IsWhitespace(s[0]) then TrimStart(s[1..]) else s
  }

  /** Drops the trailing whitespace of `s`. */
  function TrimEnd(s: string): (r: string)
    ensures |r| <= |s| && r == s[..|r|]
    ensures r == [] || !IsWhitespace(r[|r| - 1])
  {
    if |s| > 0 && IsWhitespace(s[|s| - 1]) then TrimEnd(s[..|s| - 1]) else s
  }

  /** What `TrimStart` drops is whitespace. */
  lemma {:induction false} TrimStartStrips(s: string)
    ensures AllWhitespace(s[..|s| - |TrimStart(s)|])
    decreases |s|
  {
    if |s| > 0 && IsWhitespace(s[0]) {
      var k := |s| - |TrimStart(s)|;
      TrimStartStrips(s[1..]);
      forall i | 0 <= i < k
        ensures IsWhitespace(s[..k][i])
      {
        if i > 0 {
          assert s[..k][i] == s[1..][..k - 1][i - 1];
        }
      }
    }
  }

  /** What `TrimEnd` drops is whitespace. */
  lemma {:induction false} TrimEndStrips(s: string)
    ensures AllWhitespace(s[|TrimEnd(s)|..])
    decreases |s|
  {
    if |s| > 0 && IsWhitespace(s[|s| - 1]) {
      var r := TrimEnd(s[..|s| - 1]);
      TrimEndStrips(s[..|s| - 1]);
      assert s[|r|..] == s[..|s| - 1][|r|..] + [s[|s| - 1]];
    }
  }

  /** `String.prototype.trim`. */
  function Trim(s: string): (r: string)
    ensures IsTrimmed(r)
    ensures |r| <= |s|
  {
    var t := TrimStart(s);
    var r := TrimEnd(t);
    assert r == [] || r[0] == t[0];
    r
  }

  /** `s` is `Trim(s)` wrapped in whitespace on both sides: `Trim` removes
      only whitespace, and only at the ends. */
  lemma TrimDecomposes(s: string)
    ensures exists k :: 0 <= k <= |s| - |Trim(s)| && s[k..k + |Trim(s)|] == Trim(s)
                        && AllWhitespace(s[..k]) && AllWhitespace(s[k + |Trim(s)|..])
  {
    var t := TrimStart(s);
    var r := TrimEnd(t);
    var k := |s| - |t|;
    assert r == Trim(s);
    assert s[k..k + |r|] == r by {
      SliceOfSuffix(s, t, r);
    }
    assert AllWhitespace(s[..k]) by {
      TrimStartStrips(s);
    }
    assert AllWhitespace(s[k + |r|..]) by {
      TrimEndStrips(t);
      assert s[k + |r|..] == t[|r|..];
    }
  }

  /** A prefix of a suffix is a middle slice. */
  lemma SliceOfSuffix(s: string, t: string, r: string)
    requires |t| <= |s| && t == s[|s| - |t|..]
    requires |r| <= |t| && r == t[..|r|]
    ensures s[|s| - |t|..|s| - |t| + |r|] == r
  {
  }

  /** Uniqueness: whatever whitespace surrounds a trimmed core, `Trim` returns
      exactly that core. Together with `TrimDecomposes` this characterises `Trim`. */
  lemma {:induction false} TrimOfPadded(pre: string, core: string, suf: string)
    requires AllWhitespace(pre) && AllWhitespace(suf) && IsTrimmed(core)
    ensures Trim(pre + core + suf) == core
  {
    if core == [] {
      assert pre + core + suf == (pre + suf) + [];
      TrimStartOfPadded(pre + suf, []);
    } else {
      assert pre + core + suf == pre + (core + suf);
      TrimStartOfPadded(pre, core + suf);
      TrimEndOfPadded(core, suf);
    }
  }

  lemma {:induction false} TrimStartOfPadded(pre: string, rest: string)
    requires AllWhitespace(pre)
    requires rest == [] || !IsWhitespace(rest[0])
    ensures TrimStart(pre + rest) == rest
    decreases |pre|
  {
    if pre != [] {
      assert (pre + rest)[1..] == pre[1..] + rest;
      TrimStartOfPadded(pre[1..], rest);
    }
  }

  lemma {:induction false} TrimEndOfPadded(core: string, suf: string)
    requires AllWhitespace(suf)
    requires core == [] || !IsWhitespace(core[|core| - 1])
    ensures TrimEnd(core + suf) == core
    decreases |suf|
  {
    if suf != [] {
      assert (core + suf)[..|core + suf| - 1] == core + suf[..|suf| - 1];
      TrimEndOfPadded(core, suf[..|suf| - 1]);
    } else {
      assert core + suf == core;
    }
  }

  /** A trimmed string is its own trim, so `Trim` is idempotent. */
  lemma TrimIdentity(s: string)
    requires IsTrimmed(s)
    ensures Trim(s) == s
  {
    assert [] + s + [] == s;
    TrimOfPadded([], s, []);
  }

  /** `Array.prototype.join` with a one-character separator. */
  function Join(parts: seq<string>, sep: char): string
    requires |parts| >= 1
  {
    if |parts| == 1 then parts[0] else parts[0] + [sep] + Join(parts[1..], sep)
  }

  /** `String.prototype.split` on a one-character separator: the maximal
      separator-free pieces, empty ones included, so there is always one
      more piece than there are separators. */
  function Split(s: string, sep: char): (parts: seq<string>)
    ensures |parts| == Count(s, sep) + 1
    ensures forall i :: 0 <= i < |parts| ==> sep !in parts[i]
  {
    if s == [] then [[]]
    else
      var rest := Split(s[1..], sep);
      if s[0] == sep then [[]] + rest
      else [[s[0]] + rest[0]] + rest[1..]
  }

  /** Number of occurrences of `c` in `s`. */
  function Count(s: string, c: char): nat {
    if s == [] then 0 else (if s[0] == c then 1 else 0) + Count(s[1..], c)
  }

  lemma {:induction false} CountAppend(a: string, b: string, c: char)
    ensures Count(a + b, c) == Count(a, c) + Count(b, c)
    decreases |a|
  {
    if a != [] {
      assert (a + b)[1..] == a[1..] + b;
      CountAppend(a[1..], b, c);
    } else {
      assert a + b == b;
    }
  }

  lemma {:induction false} CountAbsent(s: string, c: char)
    requires c !in s
    ensures Count(s, c) == 0
    decreases |s|
  {
    if s != [] {
      CountAbsent(s[1..], c);
    }
  }

  /** Splitting and re-joining on the same separator gives back the input. */
  lemma {:induction false} JoinSplit(s: string, sep: char)
    ensures Join(Split(s, sep), sep) == s
    decreases |s|
  {
    if s != [] {
      var rest := Split(s[1..], sep);
      JoinSplit(s[1..], sep);
      if s[0] == sep {
        assert Split(s, sep) == [[]] + rest;
        assert ([[]] + rest)[1..] == rest;
      } else {
        var parts := [[s[0]] + rest[0]] + rest[1..];
        assert Split(s, sep) == parts;
        if |rest| == 1 {
          assert Join(parts, sep) == [s[0]] + rest[0];
        } else {
          assert parts[1..] == rest[1..];
          assert Join(rest, sep) == rest[0] + [sep] + Join(rest[1..], sep);
        }
      }
    }
  }

  /** Joining separator-free pieces and splitting again gives back the pieces. */
  lemma {:induction false} SplitJoin(parts: seq<string>, sep: char)
    requires |parts| >= 1
    requires forall i :: 0 <= i < |parts| ==> sep !in parts[i]
    ensures Split(Join(parts, sep), sep) == parts
    decreases |parts|, |parts[0]|
  {
    if parts[0] != [] {
      var p0 := parts[0];
      var tail := [p0[1..]] + parts[1..];
      var j := Join(parts, sep);
      JoinHead(parts, sep);
      SplitJoin(tail, sep);
      assert Split(j, sep) == [[p0[0]] + p0[1..]] + tail[1..];
      assert [p0[0]] + p0[1..] == p0;
      assert tail[1..] == parts[1..];
    } else if |parts| > 1 {
      assert Join(parts, sep) == [sep] + Join(parts[1..], sep);
      assert Join(parts, sep)[1..] == Join(parts[1..], sep);
      SplitJoin(parts[1..], sep);
      assert parts == [[]] + parts[1..];
    }
  }

  /** A join whose first piece is non-empty starts with that piece's first
      character, followed by the join with that character dropped. */
  lemma JoinHead(parts: seq<string>, sep: char)
    requires |parts| >= 1 && parts[0] != [] && sep !in parts[0]
    ensures var j := Join(parts, sep);
            && j != [] && j[0] == parts[0][0] && j[0] != sep
            && Join([parts[0][1..]] + parts[1..], sep) == j[1..]
  {
    var p0 := parts[0];
    var tail := [p0[1..]] + parts[1..];
    var j := Join(parts, sep);
    assert p0[0] in p0;
    if |parts| > 1 {
      assert tail[1..] == parts[1..];
      assert j == p0 + ([sep] + Join(parts[1..], sep));
    }
  }

  /** Joining two lists is joining each and putting a separator between. */
  lemma {:induction false} JoinAppend(a: seq<string>, b: seq<string>, sep: char)
    requires |a| >= 1 && |b| >= 1
    ensures Join(a + b, sep) == Join(a, sep) + [sep] + Join(b, sep)
    decreases |a|
  {
    var ab := a + b;
    assert ab[0] == a[0];
    if |a| == 1 {
      assert ab[1..] == b;
    } else {
      assert ab[1..] == a[1..] + b;
      JoinAppend(a[1..], b, sep);
    }
  }

  /** Splitting a join of separator-free pieces followed by a separator and
      more text gives the pieces, then the split of that text. */
  lemma SplitAfterJoin(parts: seq<string>, tail: string, sep: char)
    requires |parts| >= 1
    requires forall i :: 0 <= i < |parts| ==> sep !in parts[i]
    ensures Split(Join(parts, sep) + [sep] + tail, sep) == parts + Split(tail, sep)
  {
    var rs := Split(tail, sep);
    JoinSplit(tail, sep);
    JoinAppend(parts, rs, sep);
    SplitJoin(parts + rs, sep);
  }

  /** `TrimEnd` never drops a character that has a non-whitespace one at or
      after it. */
  lemma {:induction false} TrimEndKeeps(s: string, j: nat)
    requires j < |s| && !IsWhitespace(s[j])
    ensures |TrimEnd(s)| > j
    decreases |s|
  {
    if IsWhitespace(s[|s| - 1]) {
      var init := s[..|s| - 1];
      assert init[j] == s[j];
      TrimEndKeeps(init, j);
    }
  }

  /** No separator occurs in a join of separator-free pieces with a different separator. */
  lemma {:induction false} JoinAvoids(parts: seq<string>, sep: char, c: char)
    requires |parts| >= 1 && c != sep
    requires forall i :: 0 <= i < |parts| ==> c !in parts[i]
    ensures c !in Join(parts, sep)
    decreases |parts|
  {
    if |parts| > 1 {
      JoinAvoids(parts[1..], sep, c);
    }
  }

  /** Applies `Trim` to every element (`.map(s => s.trim())`). */
  function TrimAll(parts: seq<string>): (r: seq<string>)
    ensures |r| == |parts|
    ensures forall i :: 0 <= i < |r| ==> r[i] == Trim(parts[i])
  {
    seq(|parts|, i requires 0 <= i < |parts| => Trim(parts[i]))
  }

  /** Keeps the non-empty elements in order (`.filter(s => s !== '')`). */
  function NonEmpty(parts: seq<string>): (r: seq<string>)
    ensures |r| <= |parts|
    ensures forall i :: 0 <= i < |r| ==> r[i] != []
    ensures forall s :: s in r <==> s in parts && s != []
  {
    if parts == [] then []
    else if parts[0] == [] then NonEmpty(parts[1..])
    else [parts[0]] + NonEmpty(parts[1..])
  }

  /** `NonEmpty` distributes over concatenation: it keeps order and
      multiplicity. */
  lemma {:induction false} NonEmptyAppend(a: seq<string>, b: seq<string>)
    ensures NonEmpty(a + b) == NonEmpty(a) + NonEmpty(b)
    decreases |a|
  {
    if a == [] {
      assert a + b == b;
    } else {
      assert (a + b)[0] == a[0];
      assert (a + b)[1..] == a[1..] + b;
      NonEmptyAppend(a[1..], b);
      if a[0] != [] {
        assert [a[0]] + (NonEmpty(a[1..]) + NonEmpty(b)) == ([a[0]] + NonEmpty(a[1..])) + NonEmpty(b);
      }
    }
  }

  /** A single element is kept iff it is non-empty. */
  lemma NonEmptySingle(t: string)
    ensures NonEmpty([t]) == (if t == [] then [] else [t])
  {
    assert [t][1..] == [];
  }

  /** Nothing is dropped when every element is non-empty. */
  lemma {:induction false} NonEmptyAllKept(parts: seq<string>)
    requires forall i :: 0 <= i < |parts| ==> parts[i] != []
    ensures NonEmpty(parts) == parts
    decreases |parts|
  {
    if parts != [] {
      NonEmptyAllKept(parts[1..]);
    }
  }

  /** Drops the leading run of newlines. */
  function DropNewlines(s: string): (r: string)
    ensures |r| <= |s| && r == s[|s| - |r|..]
    ensures r == [] || r[0] != '\n'
  {
    if s != [] && s[0] == '\n' then DropNewlines(s[1..]) else s
  }

  /** `s.replace(/\n+/g, ' ')`: every maximal run of newlines becomes one space. */
  function CollapseNewlines(s: string): (r: string)
    ensures '\n' !in r
    ensures |r| <= |s|
    decreases |s|
  {
    if s == [] then []
    else if s[0] == '\n' then [' '] + CollapseNewlines(DropNewlines(s[1..]))
    else [s[0]] + CollapseNewlines(s[1..])
  }

  /** Text without newlines passes through the collapse unchanged. */
  lemma {:induction false} CollapseNewlinesIdentity(s: string)
    requires '\n' !in s
    ensures CollapseNewlines(s) == s
    decreases |s|
  {
    if s != [] {
      CollapseNewlinesIdentity(s[1..]);
    }
  }

  /** A run of one or more newlines after newline-free text becomes one
      space, and the collapse carries on after the run. With
      `CollapseNewlinesIdentity` this fixes the result on every input, run by
      run. */
  lemma {:induction false} CollapseNewlinesRun(a: string, run: string, b: string)
    requires '\n' !in a && (b == [] || b[0] != '\n')
    requires |run| >= 1 && forall i :: 0 <= i < |run| ==> run[i] == '\n'
    ensures CollapseNewlines(a + run + b) == a + " " + CollapseNewlines(b)
    decreases |a|
  {
    if a == [] {
      assert a + run + b == run + b;
      CollapseRunAtStart(run, b);
    } else {
      assert (a + run + b)[1..] == a[1..] + run + b;
      CollapseNewlinesRun(a[1..], run, b);
      assert a + " " + CollapseNewlines(b) == [a[0]] + (a[1..] + " " + CollapseNewlines(b));
    }
  }

  lemma CollapseRunAtStart(run: string, b: string)
    requires b == [] || b[0] != '\n'
    requires |run| >= 1 && forall i :: 0 <= i < |run| ==> run[i] == '\n'
    ensures CollapseNewlines(run + b) == " " + CollapseNewlines(b)
  {
    var s := run + b;
    assert s[0] == '\n';
    assert s[1..] == run[1..] + b;
    DropRun(run[1..], b);
    assert CollapseNewlines(s) == [' '] + CollapseNewlines(DropNewlines(s[1..]));
  }

  /** Two single newlines around non-empty newline-free text become two
      spaces. */
  lemma CollapseTwoRuns(a: string, m: string, c: string)
    requires '\n' !in a && '\n' !in m && '\n' !in c && m != []
    ensures CollapseNewlines(a + "\n" + m + "\n" + c) == a + " " + m + " " + c
  {
    var rest := m + "\n" + c;
    var collapsedRest := m + " " + c;
    assert CollapseNewlines(rest) == collapsedRest by {
      CollapseOneNewline(m, c);
    }
    assert CollapseNewlines(a + "\n" + rest) == a + " " + collapsedRest by {
      assert rest[0] == m[0] && m[0] in m;
      CollapseNewlinesRun(a, "\n", rest);
    }
    Regroup(a, "\n", m, "\n", c);
    Regroup(a, " ", m, " ", c);
  }

  /** Concatenation regrouped so that the last three pieces form one. */
  lemma Regroup<T>(a: seq<T>, x: seq<T>, m: seq<T>, y: seq<T>, c: seq<T>)
    ensures a + x + m + y + c == a + x + (m + y + c)
  {
  }

  /** One newline between newline-free texts becomes one space. */
  lemma CollapseOneNewline(m: string, c: string)
    requires '\n' !in m && '\n' !in c
    ensures CollapseNewlines(m + "\n" + c) == m + " " + c
  {
    assert c == [] || c[0] != '\n' by {
      if c != [] { assert c[0] in c; }
    }
    CollapseNewlinesRun(m, "\n", c);
    CollapseNewlinesIdentity(c);
  }

  /** Two adjacent newlines form one run and become one space. */
  lemma CollapseMergedRuns(a: string, c: string)
    requires '\n' !in a && '\n' !in c
    ensures CollapseNewlines(a + "\n\n" + c) == a + " " + c
  {
    assert c == [] || c[0] != '\n' by {
      if c != [] { assert c[0] in c; }
    }
    CollapseNewlinesRun(a, "\n\n", c);
    CollapseNewlinesIdentity(c);
  }

  lemma {:induction false} DropRun(run: string, b: string)
    requires forall i :: 0 <= i < |run| ==> run[i] == '\n'
    requires b == [] || b[0] != '\n'
    ensures DropNewlines(run + b) == b
    decreases |run|
  {
    if run != [] {
      assert (run + b)[1..] == run[1..] + b;
      DropRun(run[1..], b);
    } else {
      assert run + b == b;
    }
  }
}

=== FILE: tokens.dfy ===
/** Token parser and value validator: how the element's text becomes the
    three segments `points[;max][;mean]`, how the points segment becomes
    tokens, and how tokens are sorted into finite numbers and rejects. */
module Tokens {
  import opened Wrappers
  import opened Strings

  /** JavaScript's `Number(text)` on a non-empty trimmed string: `Some(v)` for
      a finite result `v`, `None` for NaN and for +/-Infinity. It is a
      parameter of the model, not a definition of it. */
  type Parser = string -> Option<real>

  /** The three `;`-separated segments of a chart spec. `max` and `mean` are
      None when the text has too few segments; segments past the third are
      ignored. */
  datatype Segments = Segments(points: string, max: Option<string>, mean: Option<string>)

  /** Trims the text, splits it on `;` and trims every part. */
  function SplitContent(content: string): (seg: Segments)
    ensures IsTrimmed(seg.points)
    ensures seg.max.Some? ==> IsTrimmed(seg.max.value)
    ensures seg.mean.Some? ==> IsTrimmed(seg.mean.value)
    ensures ';' !in seg.points
    ensures seg.max.Some? ==> ';' !in seg.max.value
    ensures seg.mean.Some? ==> ';' !in seg.mean.value
    ensures seg.max.Some? <==> Count(content, ';') >= 1
    ensures seg.mean.Some? <==> Count(content, ';') >= 2
  {
    var raw := Split(Trim(content), ';');
    var parts := TrimAll(raw);
    TrimKeepsSemicolons(content);
    TrimmedPartsAvoid(raw, ';');
    Segments(parts[0],
             if |parts| > 1 then Some(parts[1]) else None,
             if |parts| > 2 then Some(parts[2]) else None)
  }

  /** `Trim` removes only whitespace, so it keeps every `;`. */
  lemma TrimKeepsSemicolons(content: string)
    ensures Count(Trim(content), ';') == Count(content, ';')
  {
    TrimStartCount(content, ';');
    TrimEndCount(TrimStart(content), ';');
  }

  lemma {:induction false} TrimStartCount(s: string, c: char)
    requires !IsWhitespace(c)
    ensures Count(TrimStart(s), c) == Count(s, c)
    decreases |s|
  {
    if |s| > 0 && IsWhitespace(s[0]) {
      TrimStartCount(s[1..], c);
    }
  }

  lemma {:induction false} TrimEndCount(s: string, c: char)
    requires !IsWhitespace(c)
    ensures Count(TrimEnd(s), c) == Count(s, c)
    decreases |s|
  {
    if |s| > 0 && IsWhitespace(s[|s| - 1]) {
      var init := s[..|s| - 1];
      TrimEndCount(init, c);
      assert s == init + [s[|s| - 1]];
      CountAppend(init, [s[|s| - 1]], c);
    }
  }

  /** Trimming a separator-free piece keeps it separator-free. */
  lemma TrimmedPartsAvoid(parts: seq<string>, sep: char)
    requires forall i :: 0 <= i < |parts| ==> sep !in parts[i]
    ensures forall i :: 0 <= i < |parts| ==> sep !in Trim(parts[i])
  {
    forall i | 0 <= i < |parts|
      ensures sep !in Trim(parts[i])
    {
      TrimIsSlice(parts[i]);
    }
  }

  /** Every character of `Trim(s)` is a character of `s`. */
  lemma TrimIsSlice(s: string)
    ensures forall c :: c in Trim(s) ==> c in s
  {
    var t := TrimStart(s);
    var r := TrimEnd(t);
    assert forall c :: c in r ==> c in t;
    assert forall c :: c in t ==> c in s;
  }

  /** The inverse of `SplitContent`: writes three segments as `points;max;mean`. */
  function FormatContent(points: string, max: string, mean: string): string {
    Join([points, max, mean], ';')
  }

  /** Three trimmed, `;`-free segments, written out and split again, come back unchanged. */
  lemma SplitContentFormat(points: string, max: string, mean: string)
    requires IsTrimmed(points) && IsTrimmed(max) && IsTrimmed(mean)
    requires ';' !in points && ';' !in max && ';' !in mean
    ensures SplitContent(FormatContent(points, max, mean)) == Segments(points, Some(max), Some(mean))
  {
    var text := FormatContent(points, max, mean);
    assert Trim(text) == text by {
      FormattedIsTrimmed(points, max, mean);
      TrimIdentity(text);
    }
    assert Split(text, ';') == [points, max, mean] by {
      SplitJoin([points, max, mean], ';');
    }
    TrimIdentity(points);
    TrimIdentity(max);
    TrimIdentity(mean);
    SplitContentOfParts(text, points, max, mean);
  }

  /** Segments past the third are ignored: whatever follows a third `;`
      leaves the three segments unchanged. */
  lemma SplitContentExtraSegments(points: string, max: string, mean: string, rest: string)
    requires IsTrimmed(points) && IsTrimmed(max) && IsTrimmed(mean)
    requires ';' !in points && ';' !in max && ';' !in mean
    ensures SplitContent(FormatContent(points, max, mean) + ";" + rest) == Segments(points, Some(max), Some(mean))
  {
    var text := FormatContent(points, max, mean) + ";" + rest;
    var tail := TrimAfterTrimmed(points, max, mean, rest);
    var raw := [points, max, mean] + Split(tail, ';');
    assert Split(Trim(text), ';') == raw by {
      SplitAfterJoin([points, max, mean], tail, ';');
    }
    assert raw[0] == points && raw[1] == max && raw[2] == mean;
    TrimIdentity(points);
    TrimIdentity(max);
    TrimIdentity(mean);
    SplitContentOfLeadingParts(text, raw);
  }

  /** The segments are the first three parts, when those are already trimmed. */
  lemma SplitContentOfLeadingParts(text: string, raw: seq<string>)
    requires Split(Trim(text), ';') == raw && |raw| >= 3
    requires Trim(raw[0]) == raw[0] && Trim(raw[1]) == raw[1] && Trim(raw[2]) == raw[2]
    ensures SplitContent(text) == Segments(raw[0], Some(raw[1]), Some(raw[2]))
  {
    var parts := TrimAll(raw);
    assert parts[0] == raw[0] && parts[1] == raw[1] && parts[2] == raw[2];
  }

  /** Trimming `points;max;mean;rest` only touches the end of `rest`. */
  lemma TrimAfterTrimmed(points: string, max: string, mean: string, rest: string) returns (tail: string)
    requires IsTrimmed(points) && IsTrimmed(mean)
    ensures Trim(FormatContent(points, max, mean) + ";" + rest) == FormatContent(points, max, mean) + [';'] + tail
  {
    var head := FormatContent(points, max, mean);
    var text := head + ";" + rest;
    var n := |head|;
    assert text[n] == ';';
    FormattedIsTrimmed(points, max, mean);
    assert head != [] by {
      assert Join([points, max, mean], ';') == points + [';'] + Join([max, mean], ';');
    }
    assert text[0] == head[0];
    assert TrimStart(text) == text;
    TrimEndKeeps(text, n);
    var t := Trim(text);
    tail := t[n + 1..];
    assert t[..n + 1] == text[..n + 1] == head + [';'];
    assert t == t[..n + 1] + tail;
  }

  /** A trimmed, `;`-free text is a points segment alone. */
  lemma SplitContentPointsOnly(points: string)
    requires IsTrimmed(points) && ';' !in points
    ensures SplitContent(points) == Segments(points, None, None)
  {
    TrimIdentity(points);
    SplitJoin([points], ';');
    assert Join([points], ';') == points;
  }

  /** `points;max` with both parts trimmed and `;`-free: no mean segment. */
  lemma SplitContentPointsMax(points: string, max: string)
    requires IsTrimmed(points) && IsTrimmed(max) && points != [] && max != []
    requires ';' !in points && ';' !in max
    ensures SplitContent(Join([points, max], ';')) == Segments(points, Some(max), None)
  {
    var text := Join([points, max], ';');
    var parts := [points, max];
    assert parts[1..] == [max];
    assert Join(parts[1..], ';') == max;
    assert text == points + [';'] + max;
    assert Trim(text) == text by {
      assert text[0] == points[0];
      assert text[|text| - 1] == max[|max| - 1];
      TrimIdentity(text);
    }
    SplitJoin(parts, ';');
    TrimIdentity(points);
    TrimIdentity(max);
    var trimmed := TrimAll(parts);
    assert trimmed[0] == points && trimmed[1] == max;
  }

  lemma SplitContentOfParts(text: string, points: string, max: string, mean: string)
    requires Trim(text) == text && Split(text, ';') == [points, max, mean]
    requires Trim(points) == points && Trim(max) == max && Trim(mean) == mean
    ensures SplitContent(text) == Segments(points, Some(max), Some(mean))
  {
    var trimmed := TrimAll([points, max, mean]);
    assert trimmed[0] == points && trimmed[1] == max && trimmed[2] == mean;
  }

  lemma FormattedIsTrimmed(points: string, max: string, mean: string)
    requires IsTrimmed(points) && IsTrimmed(mean)
    ensures IsTrimmed(FormatContent(points, max, mean))
  {
    var parts := [points, max, mean];
    assert parts[1..] == [max, mean];
    assert parts[1..][1..] == [mean];
    var tail := max + [';'] + mean;
    assert Join([max, mean], ';') == tail;
    var text := points + [';'] + tail;
    assert FormatContent(points, max, mean) == text;
    assert text[0] == (if points == [] then ';' else points[0]);
    assert text[|text| - 1] == tail[|tail| - 1];
    assert tail[|tail| - 1] == (if mean == [] then ';' else mean[|mean| - 1]);
  }

  /** The point tokens: newline runs become spaces, then the segment is split
      on `,` and every token trimmed. */
  function RawTokens(pointsData: string): (toks: seq<string>)
    ensures |toks| >= 1
    ensures forall i :: 0 <= i < |toks| ==> IsTrimmed(toks[i]) && ',' !in toks[i] && '\n' !in toks[i]
  {
    var pieces := Split(CollapseNewlines(pointsData), ',');
    TrimmedPartsAvoid(pieces, ',');
    TrimmedPiecesAvoidNewline(CollapseNewlines(pointsData));
    TrimAll(pieces)
  }

  lemma TrimmedPiecesAvoidNewline(s: string)
    requires '\n' !in s
    ensures forall i :: 0 <= i < |Split(s, ',')| ==> '\n' !in Trim(Split(s, ',')[i])
  {
    var pieces := Split(s, ',');
    forall i | 0 <= i < |pieces|
      ensures '\n' !in Trim(pieces[i])
    {
      TrimIsSlice(pieces[i]);
      SplitPiecesAvoid(s, ',', '\n', i);
    }
  }

  /** A character absent from the input is absent from every piece of a split. */
  lemma {:induction false} SplitPiecesAvoid(s: string, sep: char, c: char, i: nat)
    requires c !in s
    requires i < |Split(s, sep)|
    ensures c !in Split(s, sep)[i]
    decreases |s|
  {
    if s != [] {
      var rest := Split(s[1..], sep);
      if s[0] == sep {
        if i > 0 {
          SplitPiecesAvoid(s[1..], sep, c, i - 1);
        }
      } else if i == 0 {
        SplitPiecesAvoid(s[1..], sep, c, 0);
      } else {
        SplitPiecesAvoid(s[1..], sep, c, i);
      }
    }
  }

  /** The inverse of `RawTokens` on clean tokens: trimmed tokens without `,`
      or newline, joined with `,`, tokenise back to themselves. */
  lemma RawTokensJoin(toks: seq<string>)
    requires |toks| >= 1
    requires forall i :: 0 <= i < |toks| ==> IsTrimmed(toks[i]) && ',' !in toks[i] && '\n' !in toks[i]
    ensures RawTokens(Join(toks, ',')) == toks
  {
    JoinAvoids(toks, ',', '\n');
    CollapseNewlinesIdentity(Join(toks, ','));
    SplitJoin(toks, ',');
    forall i | 0 <= i < |toks|
      ensures Trim(toks[i]) == toks[i]
    {
      TrimIdentity(toks[i]);
    }
  }

  /** `isValid`: a token is valid when it is non-empty and `Number` gives a finite value. */
  predicate IsValid(parse: Parser, t: string) {
    t != [] && parse(t).Some?
  }

  /** `rawTokens.filter(isValid)`. */
  function ValidTokens(parse: Parser, toks: seq<string>): (r: seq<string>)
    ensures |r| <= |toks|
    ensures forall i :: 0 <= i < |r| ==> IsValid(parse, r[i])
    ensures r == [] <==> forall i :: 0 <= i < |toks| ==> !IsValid(parse, toks[i])
  {
    if toks == [] then []
    else if IsValid(parse, toks[0]) then [toks[0]] + ValidTokens(parse, toks[1..])
    else ValidTokens(parse, toks[1..])
  }

  /** `rawTokens.filter(token => !isValid(token))`. */
  function InvalidTokens(parse: Parser, toks: seq<string>): (r: seq<string>)
    ensures |r| <= |toks|
    ensures forall i :: 0 <= i < |r| ==> !IsValid(parse, r[i])
    ensures r == [] <==> forall i :: 0 <= i < |toks| ==> IsValid(parse, toks[i])
  {
    if toks == [] then []
    else if IsValid(parse, toks[0]) then InvalidTokens(parse, toks[1..])
    else [toks[0]] + InvalidTokens(parse, toks[1..])
  }

  /** `.map(s => Number(s))` over valid tokens. */
  function Numbers(parse: Parser, toks: seq<string>): (r: seq<real>)
    requires forall i :: 0 <= i < |toks| ==> IsValid(parse, toks[i])
    ensures |r| == |toks|
    ensures forall i :: 0 <= i < |toks| ==> parse(toks[i]) == Some(r[i])
  {
    if toks == [] then []
    else
      assert IsValid(parse, toks[0]);
      [parse(toks[0]).value] + Numbers(parse, toks[1..])
  }

  /** `points`: the values of the valid tokens, in input order. */
  function Points(parse: Parser, toks: seq<string>): (r: seq<real>)
    ensures |r| == |ValidTokens(parse, toks)|
    ensures r == [] <==> forall i :: 0 <= i < |toks| ==> !IsValid(parse, toks[i])
  {
    Numbers(parse, ValidTokens(parse, toks))
  }

  /** `points.filter(n => n < 0)`. */
  function Negatives(points: seq<real>): (r: seq<real>)
    ensures forall x :: x in r <==> x in points && x < 0.0
    ensures r == [] <==> forall i :: 0 <= i < |points| ==> points[i] >= 0.0
  {
    if points == [] then []
    else if points[0] < 0.0 then [points[0]] + Negatives(points[1..])
    else
      var r := Negatives(points[1..]);
      assert forall i :: 1 <= i < |points| ==> points[i] == points[1..][i - 1];
      r
  }

  /** `Negatives` distributes over concatenation: the reported values keep
      their input order and multiplicity. */
  lemma {:induction false} NegativesAppend(a: seq<real>, b: seq<real>)
    ensures Negatives(a + b) == Negatives(a) + Negatives(b)
    decreases |a|
  {
    if a == [] {
      assert a + b == b;
    } else {
      assert (a + b)[0] == a[0];
      assert (a + b)[1..] == a[1..] + b;
      NegativesAppend(a[1..], b);
      if a[0] < 0.0 {
        assert [a[0]] + (Negatives(a[1..]) + Negatives(b)) == ([a[0]] + Negatives(a[1..])) + Negatives(b);
      }
    }
  }

  /** A single point is reported iff it is negative. */
  lemma NegativesSingle(x: real)
    ensures Negatives([x]) == (if x < 0.0 then [x] else [])
  {
    assert [x][1..] == [];
  }

  /** Valid and invalid tokens together account for every raw token. */
  lemma {:induction false} PartitionCount(parse: Parser, toks: seq<string>)
    ensures |ValidTokens(parse, toks)| + |InvalidTokens(parse, toks)| == |toks|
    decreases |toks|
  {
    if toks != [] {
      PartitionCount(parse, toks[1..]);
    }
  }

  /** Both filters distribute over concatenation: with the one-token cases
      this fixes them as order-preserving filters. */
  lemma {:induction false} ValidTokensAppend(parse: Parser, a: seq<string>, b: seq<string>)
    ensures ValidTokens(parse, a + b) == ValidTokens(parse, a) + ValidTokens(parse, b)
    decreases |a|
  {
    if a == [] {
      assert a + b == b;
    } else {
      var ab := a + b;
      assert ab[0] == a[0];
      assert ab[1..] == a[1..] + b;
      ValidTokensAppend(parse, a[1..], b);
      var va, vb, vt := ValidTokens(parse, a[1..]), ValidTokens(parse, b), ValidTokens(parse, ab[1..]);
      assert vt == va + vb;
      if IsValid(parse, a[0]) {
        assert [a[0]] + (va + vb) == ([a[0]] + va) + vb;
      }
    }
  }

  lemma {:induction false} InvalidTokensAppend(parse: Parser, a: seq<string>, b: seq<string>)
    ensures InvalidTokens(parse, a + b) == InvalidTokens(parse, a) + InvalidTokens(parse, b)
    decreases |a|
  {
    if a == [] {
      assert a + b == b;
    } else {
      var ab := a + b;
      assert ab[0] == a[0];
      assert ab[1..] == a[1..] + b;
      InvalidTokensAppend(parse, a[1..], b);
      var ia, ib, it := InvalidTokens(parse, a[1..]), InvalidTokens(parse, b), InvalidTokens(parse, ab[1..]);
      assert it == ia + ib;
      if !IsValid(parse, a[0]) {
        assert [a[0]] + (ia + ib) == ([a[0]] + ia) + ib;
      }
    }
  }

  /** A single token goes to exactly one side. */
  lemma PartitionSingle(parse: Parser, t: string)
    ensures IsValid(parse, t) ==> ValidTokens(parse, [t]) == [t] && InvalidTokens(parse, [t]) == []
    ensures !IsValid(parse, t) ==> ValidTokens(parse, [t]) == [] && InvalidTokens(parse, [t]) == [t]
  {
    assert [t][1..] == [];
  }
}

=== FILE: wrappers.dfy ===
/** Optional values: the model's stand-in for JavaScript's `null`/`undefined`
    and for numbers that are NaN or infinite. */
module Wrappers {

  datatype Option<+T> = None | Some(value: T)
}
